=== FILE: README.md ===
# Reception lifecycle of the PVZ (pickup point) service

This project models, in Dafny, the core of a Go backend for pickup points
(PVZ). A pickup point is registered in one of three cities. An employee starts
a *reception* of goods there, adds *products* to it, may remove the most
recently added product (LIFO), and closes the reception. A moderator registers
pickup points. Anyone authenticated may list pickup points with their
receptions and products, filtered by registration date and paginated.

The model is purely functional. The database is one immutable value
`Store.Db`: the three tables as sequences, plus a clock for the timestamps the
database assigns to products. Every store operation returns `Result<Db>`. A
set of `Store.Call` values says which store statements fail on a given request;
each statement of the source that can return an error has its own `Call`.
Handlers return a `Web.Reply`: a status code, a body and the next database.
Generated ids, the current time, JSON binding, and the UUID, integer, date and
token parsers are parameters. The role found in the request context is a
`Web.ContextRole`, which records the dynamic type Go's type assertion sees:
nothing, a `string`, or a typed `UserRole`.

Modules follow the source's layers:

- `Models`, `Dto`: entities, the fixed role, city, status and product-type values, and their validators.
- `Store`: the tables, the "newest row" selection that `ORDER BY date_time DESC LIMIT 1` performs, the well-formedness invariant `Valid`, and the pickup-point table.
- `ReceptionRepo`, `ProductRepo`: the two Postgres repositories.
- `ReceptionUseCase`, `ProductUseCase`: the use-case layer.
- `ReceptionHandlers`, `PvzHandlers`: the routed handler tree, which reads the role as a `string`.
- `HttpReceptionHandlers`, `HttpPvzHandlers`: the second handler tree, which reads the role as a typed `UserRole`. Its `CloseLast` is the exception and reads a `string`.
- `Jwt`: the authentication middleware.
- `Lifecycle`: the invariant "at most one open reception per pickup point, and it is the latest one", and its preservation across any sequence of requests.

Assumptions where the source leaves something open:

- **Primary keys.** `id` is assumed to be the primary key of every table, so inserting a taken id fails.
- **Ties.** Among rows with the same greatest `date_time`, "newest" is the row inserted last.
- **Product timestamps.** Product timestamps come from the database clock, because the insert omits `date_time`. Each insert advances that clock.
- **Reception timestamps.** Reception timestamps come from the handler's clock, passed in as `now`.

## Model

| member | source | states |
|---|---|---|
| `Dto.ConstantsDistinct` | internal/handlers/dto/base.go:96-116 | the two roles and the two statuses differ; there are exactly three cities and three product types |
| `Dto.RoleClassification` | internal/handlers/dto/base.go:36-61 | a role is valid iff it is moderator or employee, and never both |
| `Dto.AcceptedValues` | internal/handlers/dto/base.go:36-94 | each validator accepts exactly its fixed set of strings |
| `Store.NewestOf` | internal/repository/postgres/reception.go:123-127 | the selected row belongs to the owner and has the greatest time among the owner's rows; every later row of the owner has a strictly smaller time; it is None iff the owner has no row |
| `Store.NewestIsUnique` | internal/repository/postgres/reception.go:123-127 | a row that is the owner's greatest-time row, with only strictly older rows of the owner after it, is the one selected |
| `Store.NewestAppendOther` | internal/repository/postgres/reception.go:26-46 | appending another owner's row does not change an owner's newest row |
| `Store.NewestAppendLatest` | internal/repository/postgres/reception.go:26-46 | an appended row dated no earlier than all of its owner's rows becomes that owner's newest |
| `Store.CreatePvz` | internal/usecase/pvz.go:25-36 | inserting a pickup point succeeds iff no fault occurs and its id is free; on success it appends the row and leaves the other tables alone |
| `Store.GetAllPvzs` | internal/usecase/pvz.go:38-48 | the read succeeds iff there is no fault, and then returns the pickup-point table |
| `ReceptionRepo.Latest` | internal/repository/postgres/reception.go:122-129 | the latest reception of a pickup point belongs to it and no reception of the point is dated later; it is None iff the point has none |
| `ReceptionRepo.FindById` | internal/repository/postgres/reception.go:91-96 | the first row carrying the id, or None iff no row carries it |
| `ReceptionRepo.Create` | internal/repository/postgres/reception.go:26-46 | the insert succeeds iff no fault occurs and the id is free; on success it appends exactly the given reception, changes nothing else and keeps `Valid` |
| `ReceptionRepo.IsOpen` | internal/repository/postgres/reception.go:90-120 | true only without a fault, and only if a row with that id is `in_progress`; false for an unknown id; with unique ids, true iff no fault and the row is `in_progress` |
| `ReceptionRepo.IsOpenLatest` | internal/repository/postgres/reception.go:102-119 | with unique ids, the pickup point's latest reception reads as open iff the query does not fail and that reception is `in_progress` |
| `ReceptionRepo.GetLast` | internal/repository/postgres/reception.go:122-143 | on a fault it returns the database error; without one it returns no-rows iff the point has no reception; on success it returns the latest reception of the point |
| `ReceptionRepo.OfPvz` | internal/repository/postgres/reception.go:147-149 | keeps exactly the receptions of the pickup point, each no more often than the table holds it |
| `ReceptionRepo.InsertNewestFirst` | internal/repository/postgres/reception.go:150 | inserting into a newest-first list gives a newest-first permutation of the list plus the element |
| `ReceptionRepo.HeadBoundsTail` | internal/repository/postgres/reception.go:150 | the head of a newest-first list is dated no earlier than any element |
| `ReceptionRepo.PrependNewest` | internal/repository/postgres/reception.go:150 | prepending an element dated no earlier than all of a newest-first list keeps it newest-first |
| `ReceptionRepo.SortNewestFirst` | internal/repository/postgres/reception.go:150 | the result is a permutation of the input, ordered newest first |
| `ReceptionRepo.GetAllForPVZ` | internal/repository/postgres/reception.go:145-167 | it succeeds iff there is no fault; the list holds exactly the point's receptions, as a multiset, newest first |
| `ReceptionRepo.GetAllHeadIsLatest` | internal/repository/postgres/reception.go:122-167 | the head of the full list is dated like the latest reception, so the two queries agree on which time is newest |
| `ReceptionRepo.CloseLast` | internal/repository/postgres/reception.go:48-88 | a select fault or a point without receptions is an error. It succeeds iff no fault occurs and the point has a reception. Then only the latest reception changes: its status becomes `close`. Timestamps, owners and `Valid` are kept |
| `ReceptionUseCase.StartReception` | internal/usecase/reception.go:27-37 | it fails iff the insert fails; on success exactly the given reception is appended; it does not check for an open reception |
| `ReceptionUseCase.CloseReception` | internal/usecase/reception.go:40-57 | if the given id is not open, it returns "reception is already closed"; otherwise it closes the latest reception of the given point, which need not be the given one |
| `ReceptionUseCase.GetLastReception` | internal/usecase/reception.go:60-71 | on an error it returns the zero reception together with the repository's error unchanged (a database error on a fault); the error is no-rows iff the point has no reception and there is no fault; otherwise it returns the latest reception |
| `ReceptionUseCase.GetListForPVZ` | internal/usecase/reception.go:74-85 | it succeeds iff there is no fault; the list is the point's receptions, newest first |
| `ReceptionUseCase.CloseReceptionIgnoresGivenId` | internal/usecase/reception.go:43-49 | with an open id that is not the latest, the latest reception is closed and the given one stays open |
| `ReceptionUseCase.CloseReceptionTwiceFails` | internal/usecase/reception.go:43-47 | closing the latest reception by its own id a second time gives "reception is already closed" |
| `ReceptionUseCase.StartReceptionAllowsSecondOpen` | internal/usecase/reception.go:27-37 | starting while the latest reception is open leaves two open receptions of one point |
| `ProductRepo.Newest` | internal/repository/postgres/product.go:37-42 | the newest product of a reception belongs to it and no product of it is dated later; it is None iff the reception has none |
| `ProductRepo.OfReception` | internal/repository/postgres/product.go:113-116 | keeps exactly the products of the reception and is no longer than the input |
| `ProductRepo.OfReceptionAppend` | internal/repository/postgres/product.go:113-116 | filtering distributes over concatenation |
| `ProductRepo.OfReceptionKeepsOrder` | internal/repository/postgres/product.go:115 | filtering a list in ascending time order keeps it in ascending time order |
| `ProductRepo.OfReceptionNone` | internal/repository/postgres/product.go:113-116 | a reception without products lists nothing |
| `ProductRepo.TailAfterHead` | internal/repository/postgres/product.go:115 | in an ascending list, every later element is dated strictly after the head |
| `ProductRepo.PrependOldest` | internal/repository/postgres/product.go:115 | prepending an element older than all of an ascending list keeps it ascending |
| `ProductRepo.AddOne` | internal/repository/postgres/product.go:87-107 | the insert succeeds iff no fault occurs and the id is free. It appends the product with the database's timestamp, leaves the receptions alone, keeps `Valid`, and makes the new product its reception's newest |
| `ProductRepo.RemoveKeepsValid` | internal/repository/postgres/product.go:61-75 | deleting any one product keeps ids unique and timestamps ascending |
| `ProductRepo.DeleteLast` | internal/repository/postgres/product.go:29-84 | a begin or select failure is a database error, and so is an exec or commit failure; no product gives no-rows. It succeeds iff all four steps succeed and a product exists. On success exactly the newest product of the reception is removed, nothing else changes, and `Valid` is kept |
| `ProductRepo.GetForReception` | internal/repository/postgres/product.go:110-132 | it succeeds iff there is no fault; the list holds exactly the reception's products, in ascending time order on a valid database |
| `ProductRepo.RemoveLastOfReception` | internal/repository/postgres/product.go:37-75 | removing a reception's last row drops the last element of its listing |
| `ProductRepo.RemoveKeepsOtherListings` | internal/repository/postgres/product.go:61-75 | removing a row of another reception leaves a reception's listing unchanged |
| `ProductRepo.DeleteLastPopsListing` | internal/repository/postgres/product.go:29-84 | on a valid database, a delete drops exactly the last element of the reception's ascending listing and leaves every other reception's listing unchanged |
| `ProductRepo.AddOneExtendsListing` | internal/repository/postgres/product.go:87-107 | an insert appends the stored product to its reception's listing and leaves every other listing unchanged |
| `ProductRepo.DeleteLastIgnoresReceptions` | internal/repository/postgres/product.go:29-84 | the delete's outcome and product table do not depend on the reception table |
| `ProductUseCase.RemoveFromReception` | internal/usecase/product.go:27-42 | it gives "reception is closed, unable to interact" unless the reception is open, and is otherwise the repository delete; on success receptions are unchanged and `Valid` is kept |
| `ProductUseCase.AddNew` | internal/usecase/product.go:44-60 | it gives the closed-reception conflict unless the reception is open, and is otherwise the repository insert; on success receptions are unchanged and `Valid` is kept |
| `ProductUseCase.GetReceptionList` | internal/usecase/product.go:62-79 | it gives the closed-reception conflict unless the reception is open. It succeeds iff the reception is open and there is no fault, and then returns exactly the reception's products, oldest first on a valid database |
| `ProductUseCase.AddThenRemoveRestores` | internal/usecase/product.go:27-60 | on a valid database, adding a product and then removing the last one restores every table |
| `ProductUseCase.ClosedReceptionIsFrozen` | internal/usecase/product.go:27-79 | for a closed or unknown reception, delete, add and list all give the conflict |
| `ReceptionHandlers.StartIfNoneOpen` | internal/handlers/reception/create.go:38-55 | a read fault gives 500; an open latest reception gives 400 "unable to start another reception"; a failed insert gives 500 "failed to add product". It answers 201 iff the start is allowed, and then appends an `in_progress` reception dated now |
| `ReceptionHandlers.Create` | internal/handlers/reception/create.go:15-73 | a bad body gives 400; a missing string role gives 500; a moderator gets 403; an unknown role gets 500. For an employee, a read fault gives 500, an open latest reception gives 400 and a failed insert gives 500 "failed to add product". It answers 201 iff an employee may start, and then exactly the new reception is appended |
| `ReceptionHandlers.RemoveNewest` | internal/handlers/reception/deleteLast.go:35-41 | it answers 200 iff the use case removes a product, which needs the reception open and a product present; then exactly the newest product goes; otherwise 500 with nothing changed |
| `ReceptionHandlers.DeleteLast` | internal/handlers/reception/deleteLast.go:11-53 | a bad id gives 400; a failed latest-reception read gives 500 before the role is looked at; role dispatch as in `Create`. It answers 200 iff the id parses, the latest reception is read, the role is the employee and the use case removes a product from that reception; an employee's failure is 500 "failed to remove product". On 200 the newest product of the point's latest, open reception is removed |
| `ReceptionHandlers.DeleteLastSucceedsIffOpenWithProduct` | internal/handlers/reception/deleteLast.go:34-52 | on a valid database, an employee's delete succeeds iff the latest reception is `in_progress`, has a product, and none of the status, begin, select, delete or commit queries fails |
| `ReceptionHandlers.DeleteLastRefusesClosedOrEmpty` | internal/handlers/reception/deleteLast.go:35-41 | on a valid database, an employee's delete gives 500 "failed to remove product" when the latest reception is closed or empty |
| `HttpReceptionHandlers.Create` | internal/handlers/http/reception/create.go:16-70 | like the routed `Create`, including the 500 "failed to add product" on a failed insert, but the role must be a typed `UserRole`, and every non-employee gets 403 |
| `HttpReceptionHandlers.DeleteLast` | internal/handlers/http/reception/deleteLast.go:11-48 | like the routed `DeleteLast`, but the role must be a typed `UserRole`, and every non-employee gets 403. It answers 200 iff the id parses, the latest reception is read, the role is the employee and the use case removes a product from that reception |
| `HttpReceptionHandlers.AddProduct` | internal/handlers/http/reception/addProduct.go:29-84 | checks run in this order: body, latest-reception read, role type, product type, employee. It answers 201 iff all of these pass and the use case adds the product to the latest reception; an employee's failure is 500 "failed to add product". On 201 the product joins the point's latest reception, which is open; it is stored with the database timestamp and echoed with the handler's time |
| `HttpReceptionHandlers.AddProductSucceedsIffLatestOpen` | internal/handlers/http/reception/addProduct.go:64-83 | on a valid database, an employee's add of a valid type succeeds iff the latest reception is `in_progress`, neither the status query nor the insert fails, and the fresh product id is unused |
| `HttpReceptionHandlers.AddProductRefusesClosed` | internal/handlers/http/reception/addProduct.go:64-70 | on a valid database, adding to a closed latest reception gives 500 and changes nothing |
| `PvzHandlers.Create` | internal/handlers/pvz/create.go:13-64 | a bad body gives 400; a non-string role gives 500. A nil id is replaced by the generated one and a zero date by now. A moderator gets 201 iff the insert succeeds, with any city; an employee gets 403; an unknown role gets 500 |
| `PvzHandlers.CloseLast` | internal/handlers/pvz/closeLast.go:28-75 | a bad id gives 400; a failed read gives 500; a moderator gets 403. It answers 200 iff the id parses, the latest reception is read, the role is the employee and the use case closes that reception; an employee's failure is 500 "failed to close reception". On 200 the point's latest reception is closed and the reply shows it as read before closing |
| `PvzHandlers.CloseLastSucceedsIffLatestOpen` | internal/handlers/pvz/closeLast.go:51-58 | on a valid database, an employee's close succeeds iff the latest reception is `in_progress` and none of the status, select or update queries fails |
| `PvzHandlers.CloseLastReportsPriorStatus` | internal/handlers/pvz/closeLast.go:69-73 | on a valid database, a successful close reports `in_progress`; a closed latest reception gives 500 |
| `PvzHandlers.ParsePage` | internal/handlers/pvz/getAll.go:18-27 | an absent page is 1; otherwise it is accepted iff it parses to at least 1 |
| `PvzHandlers.ParseLimit` | internal/handlers/pvz/getAll.go:19-35 | an absent limit is 10; otherwise it is accepted iff it parses to a value from 1 to 30 |
| `PvzHandlers.ParseDate` | internal/handlers/pvz/getAll.go:37-52 | an absent date is the zero time, which disables that bound; otherwise it is the parser's result |
| `PvzHandlers.FilterByDate` | internal/handlers/pvz/getAll.go:61-64 | a point is kept iff it is in the input and inside the inclusive date bounds |
| `PvzHandlers.FilterByDateCounts` | internal/handlers/pvz/getAll.go:61-64 | every in-range point is kept as often as it occurs in the input, and no other point is kept |
| `PvzHandlers.FilterByDateAppend` | internal/handlers/pvz/getAll.go:59-64 | filtering keeps input order: the filter of a concatenation is the concatenation of the filters |
| `PvzHandlers.CollectReceptions` | internal/handlers/pvz/getAll.go:73-98 | it succeeds iff every reception's product list can be read, and then pairs each reception with its products, in order |
| `PvzHandlers.ListOne` | internal/handlers/pvz/getAll.go:66-107 | one pickup point's listing succeeds iff its receptions and each one's products can be read; the view is about that point, and its receptions are `CollectReceptions` of the point's `GetListForPVZ` list: each reception, newest first, with its product listing. A failure names receptions or products |
| `PvzHandlers.CollectPvzs` | internal/handlers/pvz/getAll.go:61-108 | it fails iff some pickup point in range cannot be listed; the message names receptions or products. Otherwise the views are exactly the points in range, in order, and each view is that point's `ListOne` listing |
| `PvzHandlers.Window` | internal/handlers/pvz/getAll.go:110-120 | the window lies within the list and is at most one page long. A page that starts inside the list starts at `(page-1)*limit`; a page past the end is empty at the end of the list. A page is exactly `limit` long unless it reaches the end |
| `PvzHandlers.PagesTile` | internal/handlers/pvz/getAll.go:110-120 | page 1 starts at 0, and each page starts where the previous one ends |
| `PvzHandlers.WindowAsWritten` | internal/handlers/pvz/getAll.go:110-120 | the handler's own window, with 64-bit wrapping: it is clamped only from above |
| `PvzHandlers.Wrap64` | internal/handlers/pvz/getAll.go:111-112 | Go's 64-bit `int` arithmetic: the result is in range and congruent to the exact value |
| `PvzHandlers.HugePageGivesNegativeStart` | internal/handlers/pvz/getAll.go:21-27 | an accepted page number makes the handler's start negative, while the corrected window is empty |
| `PvzHandlers.ListPage` | internal/handlers/pvz/getAll.go:54-120 | it answers 200 iff the store read succeeds and every pickup point in range can be listed. A failed store read gives 500 "Failed to get PVZs"; a failed listing gives 500 with the message of the first failing point. On 200 the items are the page window of the points in range, at most `limit` of them, and each item is its point's `ListOne` listing with receptions and products |
| `PvzHandlers.GetAll` | internal/handlers/pvz/getAll.go:12-121 | a bad page gives 400 before the limit is checked, then a bad limit, a bad start date and a bad end date give 400 with their own messages, in that order. Once page, limit and dates parse, the reply is `ListPage`'s. So on 200 the items are the page window of the points in range, at most `limit` of them, each with its receptions and their products |
| `PvzHandlers.GetAllFailsOnClosedReception` | internal/handlers/pvz/getAll.go:66-78 | on a valid database, the whole listing answers 500 as soon as a pickup point in range has a reception that is not `in_progress` |
| `HttpPvzHandlers.Create` | internal/handlers/http/pvz/create.go:14-67 | a bad body gives 400; a role that is not a typed `UserRole` gives 500; a city outside the three gives 400. Defaults as in the routed tree. A moderator gets 201 iff the insert succeeds; anyone else gets 403 |
| `HttpPvzHandlers.CreateAgreesOnValidCity` | internal/handlers/http/pvz/create.go:30-59 | for a moderator and a valid city, both trees' `Create` give the same reply and state |
| `HttpPvzHandlers.OnlyRoutedCreateAcceptsOtherCities` | internal/handlers/http/pvz/create.go:30-34 | a city outside the three is refused with 400 here, but stored with 201 by the routed tree |
| `HttpPvzHandlers.CloseLast` | internal/handlers/http/pvz/closeLast.go:28-75 | a bad id gives 400; a failed read gives 500 before the role check; a moderator gets 403; an unknown role gets 500. It answers 200 iff the id parses, the latest reception is read, the role is the employee and the use case closes that reception. On 200 the latest reception is closed in the table and the reply carries it with status `close` |
| `HttpPvzHandlers.CloseLastAgreesWithRouted` | internal/handlers/http/pvz/closeLast.go:69-73 | both trees' `CloseLast` give the same code and state change; only the reported status differs |
| `Jwt.TrimPrefix` | internal/middleware/jwt.go:18 | with the prefix present, the input is the prefix followed by the result; otherwise the input is returned |
| `Jwt.TrimChangesIffPrefixed` | internal/middleware/jwt.go:18-21 | trimming changes the header iff it starts with a non-empty prefix |
| `Jwt.StringClaim` | internal/middleware/jwt.go:28-38 | a claim is accepted iff it is present, is a string and is non-empty |
| `Jwt.Authenticate` | internal/middleware/jwt.go:11-42 | an empty header gives "missing token"; a header without `Bearer ` gives "invalid token format"; an unparsable or expired token gives "invalid or expired token"; a missing email claim, then a missing role claim, give their own messages. It authenticates iff the token parses and carries non-empty string email and role claims, and the result holds those claims |
| `Jwt.HttpTypedHandlersRejectMiddlewareRole` | internal/middleware/jwt.go:34-38 | the middleware stores the role as a plain string. So behind it, every `http` handler that asserts a typed `UserRole` answers 500 "failed to fetch user role" to any request that reaches the role check: the pvz `Create` (http/pvz/create.go:23-28), the reception `Create` (http/reception/create.go:24-28), `AddProduct` (http/reception/addProduct.go:44-48) and `DeleteLast` (http/reception/deleteLast.go:27-31) |
| `Lifecycle.AtMostOneOpen` | internal/handlers/reception/create.go:45-49 | under the invariant, two `in_progress` receptions of one point are the same row |
| `Lifecycle.AppendKeepsOneOpen` | internal/handlers/reception/create.go:39-55 | appending an `in_progress` reception keeps the invariant when the latest reception is not open and the new one is dated no earlier than the rest |
| `Lifecycle.RestatusKeepsOneOpen` | internal/repository/postgres/reception.go:69-84 | changing statuses only, with no row becoming `in_progress`, keeps the invariant |
| `Lifecycle.Apply` | cmd/server/main.go:66-71 | every routed request keeps `Valid`; a listing changes nothing |
| `Lifecycle.StepKeepsOneOpen` | cmd/server/main.go:66-71 | every routed request keeps the invariant, given that a start's clock has not gone back |
| `Lifecycle.Run` | cmd/server/main.go:66-71 | serving requests in order keeps `Valid` |
| `Lifecycle.RunKeepsOneOpen` | cmd/server/main.go:66-71 | any timely sequence of requests keeps the invariant |
| `Lifecycle.HttpCreateKeepsOneOpen` | internal/handlers/http/reception/create.go:38-55 | the `http` tree's reception create keeps the invariant too |
| `Lifecycle.HttpCloseKeepsOneOpen` | internal/handlers/http/pvz/closeLast.go:51-58 | the `http` tree's close keeps the invariant too |
| `Lifecycle.ClockSkewOpensTwo` | internal/handlers/reception/create.go:30-55 | if a start's clock reads earlier than a closed reception of the same point, the invariant breaks, and a second start leaves two receptions open |

## Findings

| source | as written | input that shows it | evidently intended | confidence | as-written member | corrected member |
|---|---|---|---|---|---|---|
| internal/handlers/pvz/getAll.go:111-120 | `start := (page - 1) * limit` in Go's 64-bit `int`, clamped only from above | `page=4611686018427387905`, `limit=2`: the start wraps to -2^63, and `filtered[start:end]` panics with slice bounds out of range, which the server's `Recover` middleware (cmd/server/main.go:42) turns into a 500 for the caller | every accepted page yields a window inside the list (past the end: empty) | high, not executed | `PvzHandlers.HugePageGivesNegativeStart` (over `PvzHandlers.WindowAsWritten`) | `PvzHandlers.Window` |

## Left out

- Logging, metrics counters, and the squirrel query builders. The builders' errors cannot occur for these fixed queries, so they are not modelled.
- Concurrency. Requests are served one at a time. Two concurrent starts can both pass the "latest is not open" read before either inserts; that race is not modelled.
- The pickup-point repository (internal/repository/postgres/pvz.go) is not part of this model; `Store` keeps only an insert and a read of the table.
- `Store.CreatePvz`: stores the registration date it is given. The source's insert lists only `id` and `city`, so there the database's default date applies.
- `Store.GetAllPvzs`: returns the table in stored order, not newest first as the source's `ORDER BY registration_date DESC` does. The listing order that `PvzHandlers.CollectPvzs` and `PvzHandlers.GetAll` state is relative to what the store returns.
- `Lifecycle.StepKeepsOneOpen`, `Lifecycle.RunKeepsOneOpen`: these need each start's clock to read no earlier than every stored reception. The source relies on this without checking it, and `Lifecycle.ClockSkewOpensTwo` shows what fails without it.
- internal/handlers/reception/addProduct.go (the routed add-product handler) is not part of this model. The request trace uses `HttpReceptionHandlers.AddProduct` for product additions.
- The gRPC server, the auth and user handlers, token signing (`auth.ParseToken` is a parameter), and configuration.
- JSON encoding details, such as a nil slice encoding as `null`. Views carry the same entities as the tables.
- Time has whole-number precision, and the zero `time.Time` is 0.
- UUIDs are natural numbers, and the nil UUID is 0.
- `PvzHandlers.GetAll`: uses the corrected `PvzHandlers.Window`. So for a page whose `(page-1)*limit` overflows Go's 64-bit `int` (such as page=4611686018427387905 with limit=2), the model answers 200 with an empty page. The source computes a negative start there and its slice expression panics. The server's `Recover` middleware turns that panic into a 500, so a caller sees 500 where the model gives 200; see "## Findings".

=== FILE: dto.dfy ===
/** The enumerated string types of the HTTP layer and their validators. */
module Dto {

  const EmployeeRole := "employee"
  const ModeratorRole := "moderator"

  const KazanCity := "Казань"
  const MoscowCity := "Москва"
  const SaintCity := "Санкт-Петербург"

  const InProgressStatus := "in_progress"
  const CloseStatus := "close"

  const ElectronicType := "электроника"
  const ClothesType := "одежда"
  const ShoesType := "обувь"

  /** `UserRole.Validate`. */
  predicate ValidRole(u: string) {
    u == ModeratorRole || u == EmployeeRole
  }

  /** `UserRole.IsModerator`. */
  predicate IsModerator(u: string) {
    u == ModeratorRole
  }

  /** `UserRole.IsEmployee`. */
  predicate IsEmployee(u: string) {
    u == EmployeeRole
  }

  /** `PvzCity.Validate`. */
  predicate ValidCity(c: string) {
    c == MoscowCity || c == KazanCity || c == SaintCity
  }

  /** `ReceptionStatus.Validate`. */
  predicate ValidStatus(s: string) {
    s == InProgressStatus || s == CloseStatus
  }

  /** `ProductType.Validate`. */
  predicate ValidProductType(t: string) {
    t == ElectronicType || t == ClothesType || t == ShoesType
  }

  /** The constants of each enumeration are pairwise distinct, so each
      validator accepts exactly as many values as it lists. */
  lemma ConstantsDistinct()
    ensures EmployeeRole != ModeratorRole
    ensures |{MoscowCity, KazanCity, SaintCity}| == 3
    ensures InProgressStatus != CloseStatus
    ensures |{ElectronicType, ClothesType, ShoesType}| == 3
  {
    assert MoscowCity[0] != KazanCity[0] && MoscowCity[0] != SaintCity[0] && KazanCity[0] != SaintCity[0];
    assert ElectronicType[0] != ClothesType[0] && ElectronicType[0] != ShoesType[0];
    assert ClothesType[1] != ShoesType[1];
  }

  /** A role is valid exactly when it is a moderator or an employee, and it is never both. */
  lemma RoleClassification(u: string)
    ensures ValidRole(u) <==> IsModerator(u) || IsEmployee(u)
    ensures !(IsModerator(u) && IsEmployee(u))
  {
  }

  /** The accepted values of each validator, as sets. */
  lemma AcceptedValues(s: string)
    ensures ValidRole(s) <==> s in {EmployeeRole, ModeratorRole}
    ensures ValidCity(s) <==> s in {MoscowCity, KazanCity, SaintCity}
    ensures ValidStatus(s) <==> s in {InProgressStatus, CloseStatus}
    ensures ValidProductType(s) <==> s in {ElectronicType, ClothesType, ShoesType}
  {
  }
}

=== FILE: http_pvz_handlers.dfy ===
/** The pickup-point handlers of the `http` handler tree. `Create` reads the
    role as a typed `UserRole` and validates the city; `CloseLast` reads the
    role as a plain string, like the routed tree, and reports status `close`. */
module HttpPvzHandlers {
  import opened Models
  import opened Dto
  import opened Store
  import opened Web
  import ReceptionRepo
  import ReceptionUseCase
  import PvzHandlers

  const InvalidCityMessage := "invalid city for pvz"

  /** `Create` (POST /pvz) */
  function Create(db: Db, req: Option<PvzRequest>, role: ContextRole, freshId: Uuid, now: Time, faults: set<Call>): (r: Reply)
    ensures r.response.code != StatusCreated ==> r.db == db
    ensures req.None? ==> r == Refuse(db, StatusBadRequest, InvalidBodyMessage)
    ensures req.Some? && !role.AsUserRole? ==> r == Refuse(db, StatusInternalServerError, RoleFetchMessage)
    ensures req.Some? && role.AsUserRole? && !ValidCity(req.value.city) ==> r == Refuse(db, StatusBadRequest, InvalidCityMessage)
    ensures req.Some? && role.AsUserRole? && ValidCity(req.value.city) && !IsModerator(role.role)
            ==> r == Refuse(db, StatusForbidden, ForbiddenMessage)
    ensures req.Some? && role.AsUserRole? && ValidCity(req.value.city) && IsModerator(role.role) ==>
      && (r.response.code == StatusCreated <==> CreatePvz(db, PvzHandlers.WithDefaults(req.value, freshId, now), faults).Ok?)
      && (r.response.code != StatusCreated ==> r.response == Response(StatusInternalServerError, Message(PvzHandlers.CreatePvzFailedMessage)))
    ensures r.response.code == StatusCreated ==>
      && role.AsUserRole? && IsModerator(role.role)
      && ValidCity(req.value.city)
      && r.response.body.PvzBody?
      && r.response.body.pvz.id == (if req.value.id == NilUuid then freshId else req.value.id)
      && r.response.body.pvz.registrationDate == (if req.value.registrationDate == ZeroTime then now else req.value.registrationDate)
      && r.response.body.pvz.city == req.value.city
      && r.db.pvzs == db.pvzs + [r.response.body.pvz]
      && r.db.receptions == db.receptions && r.db.products == db.products
    ensures Valid(db) ==> Valid(r.db)
  {
    if req.None? then Refuse(db, StatusBadRequest, InvalidBodyMessage)
    else if !role.AsUserRole? then Refuse(db, StatusInternalServerError, RoleFetchMessage)
    else if !ValidCity(req.value.city) then Refuse(db, StatusBadRequest, InvalidCityMessage)
    else
      var p := PvzHandlers.WithDefaults(req.value, freshId, now);
      if IsModerator(role.role) then
        match CreatePvz(db, p, faults)
        case Err(_) => Refuse(db, StatusInternalServerError, PvzHandlers.CreatePvzFailedMessage)
        case Ok(next) =>
          assert next.pvzs == next.pvzs[..|db.pvzs|] + next.pvzs[|db.pvzs|..];
          Reply(Response(StatusCreated, PvzBody(p)), next)
      else Refuse(db, StatusForbidden, ForbiddenMessage)
  }

  /** A moderator's request with a valid city has the same effect in both
      trees; the routed tree also accepts a city outside the fixed set. */
  lemma CreateAgreesOnValidCity(db: Db, req: PvzRequest, freshId: Uuid, now: Time, faults: set<Call>)
    requires ValidCity(req.city)
    ensures Create(db, Some(req), AsUserRole(ModeratorRole), freshId, now, faults)
            == PvzHandlers.Create(db, Some(req), AsString(ModeratorRole), freshId, now, faults)
  {
  }

  lemma {:induction false} OnlyRoutedCreateAcceptsOtherCities(db: Db, req: PvzRequest, freshId: Uuid, now: Time, faults: set<Call>)
    requires !ValidCity(req.city)
    requires var p := PvzHandlers.WithDefaults(req, freshId, now);
             CreatePvzCall(p.id) !in faults && !exists q :: q in db.pvzs && q.id == p.id
    ensures Create(db, Some(req), AsUserRole(ModeratorRole), freshId, now, faults).response.code == StatusBadRequest
    ensures PvzHandlers.Create(db, Some(req), AsString(ModeratorRole), freshId, now, faults).response.code == StatusCreated
  {
    var p := PvzHandlers.WithDefaults(req, freshId, now);
    assert CreatePvz(db, p, faults).Ok?;
  }

  /** `CloseLast` (POST /pvz/{pvzId}/close_last_reception): the reply always
      carries status `close`, which is also what the table now holds. */
  function CloseLast(db: Db, pvzIdText: string, parseUuid: string -> Option<Uuid>, role: ContextRole, faults: set<Call>): (r: Reply)
    ensures r.response.code != StatusOK ==> r.db == db
    ensures parseUuid(pvzIdText).None? ==> r == Refuse(db, StatusBadRequest, InvalidPvzIdMessage)
    ensures parseUuid(pvzIdText).Some? && !ReceptionRepo.GetLast(db, parseUuid(pvzIdText).value, faults).Ok?
            ==> r == Refuse(db, StatusInternalServerError, GetLastFailedMessage)
    ensures parseUuid(pvzIdText).Some? && ReceptionRepo.GetLast(db, parseUuid(pvzIdText).value, faults).Ok? ==>
      && (!role.AsString? ==> r == Refuse(db, StatusInternalServerError, RoleFetchMessage))
      && (role == AsString(ModeratorRole) ==> r == Refuse(db, StatusForbidden, ForbiddenMessage))
      && (role.AsString? && !ValidRole(role.s) ==> r == Refuse(db, StatusInternalServerError, InvalidRoleMessage))
      && (role == AsString(EmployeeRole) && r.response.code != StatusOK
          ==> r == Refuse(db, StatusInternalServerError, PvzHandlers.CloseFailedMessage))
    ensures r.response.code == StatusOK <==>
      && parseUuid(pvzIdText).Some?
      && ReceptionRepo.GetLast(db, parseUuid(pvzIdText).value, faults).Ok?
      && role == AsString(EmployeeRole)
      && ReceptionUseCase.CloseReception(db, ReceptionRepo.GetLast(db, parseUuid(pvzIdText).value, faults).value.id,
                                         parseUuid(pvzIdText).value, faults).Ok?
    ensures r.response.code == StatusOK ==>
      var i := ReceptionRepo.Latest(db.receptions, parseUuid(pvzIdText).value).value;
      && role == AsString(EmployeeRole)
      && r.response.body == ReceptionBody(db.receptions[i].(status := CloseStatus))
      && r.db.receptions == db.receptions[i := db.receptions[i].(status := CloseStatus)]
      && r.db.products == db.products && r.db.pvzs == db.pvzs
    ensures Valid(db) ==> Valid(r.db)
  {
    match parseUuid(pvzIdText)
    case None => Refuse(db, StatusBadRequest, InvalidPvzIdMessage)
    case Some(pvzId) =>
      var last := ReceptionUseCase.GetLastReception(db, pvzId, faults);
      if last.err.Some? then Refuse(db, StatusInternalServerError, GetLastFailedMessage)
      else if !role.AsString? then Refuse(db, StatusInternalServerError, RoleFetchMessage)
      else if role.s == EmployeeRole then
        match ReceptionUseCase.CloseReception(db, last.reception.id, pvzId, faults)
        case Err(_) => Refuse(db, StatusInternalServerError, PvzHandlers.CloseFailedMessage)
        case Ok(next) =>
          var i := ReceptionRepo.Latest(db.receptions, pvzId).value;
          assert next.receptions[i] == last.reception.(status := CloseStatus);
          Reply(Response(StatusOK, ReceptionBody(last.reception.(status := CloseStatus))), next)
      else if role.s == ModeratorRole then Refuse(db, StatusForbidden, ForbiddenMessage)
      else Refuse(db, StatusInternalServerError, InvalidRoleMessage)
  }

  /** Both trees' `CloseLast` make the same decision and the same state change;
      they differ only in the status the reply reports. */
  lemma CloseLastAgreesWithRouted(db: Db, pvzIdText: string, parseUuid: string -> Option<Uuid>, role: ContextRole, faults: set<Call>)
    ensures var mine := CloseLast(db, pvzIdText, parseUuid, role, faults);
            var routed := PvzHandlers.CloseLast(db, pvzIdText, parseUuid, role, faults);
            && mine.db == routed.db
            && mine.response.code == routed.response.code
            && (mine.response.code != StatusOK ==> mine.response == routed.response)
            && (mine.response.code == StatusOK ==>
                  mine.response.body.reception == routed.response.body.reception.(status := CloseStatus))
  {
  }
}

=== FILE: http_reception_handlers.dfy ===
/** The reception handlers of the `http` handler tree (role read from the
    context as a `UserRole`, checked with `IsEmployee`). */
module HttpReceptionHandlers {
  import opened Models
  import opened Dto
  import opened Store
  import opened Web
  import ReceptionRepo
  import ProductRepo
  import ReceptionUseCase
  import ProductUseCase
  import ReceptionHandlers

  const InvalidTypeMessage := "invalid product type"
  const AddFailedMessage := "failed to add product"

  /** `Create` (POST /receptions). */
  function Create(db: Db, req: Option<ReceptionRequest>, role: ContextRole, freshId: Uuid, now: Time, faults: set<Call>): (r: Reply)
    ensures r.response.code != StatusCreated ==> r.db == db
    ensures req.None? ==> r == Refuse(db, StatusBadRequest, InvalidBodyMessage)
    ensures req.Some? && !role.AsUserRole? ==> r == Refuse(db, StatusInternalServerError, RoleFetchMessage)
    ensures req.Some? && role.AsUserRole? && !IsEmployee(role.role) ==> r == Refuse(db, StatusForbidden, ForbiddenMessage)
    ensures req.Some? && role == AsUserRole(EmployeeRole) && GetLastCall(req.value.pvzId) in faults
            ==> r == Refuse(db, StatusInternalServerError, ReceptionHandlers.FetchLastFailedMessage)
    ensures req.Some? && role == AsUserRole(EmployeeRole) && GetLastCall(req.value.pvzId) !in faults
            && ReceptionRepo.LatestIsOpen(db.receptions, req.value.pvzId)
            ==> r == Refuse(db, StatusBadRequest, ReceptionHandlers.CannotStartMessage)
    ensures req.Some? && role == AsUserRole(EmployeeRole) && GetLastCall(req.value.pvzId) !in faults
            && !ReceptionRepo.LatestIsOpen(db.receptions, req.value.pvzId)
            && !ReceptionHandlers.MayStart(db, req.value.pvzId, freshId, faults)
            ==> r == Refuse(db, StatusInternalServerError, ReceptionHandlers.StartFailedMessage)
    ensures r.response.code == StatusCreated <==>
      req.Some? && role == AsUserRole(EmployeeRole) && ReceptionHandlers.MayStart(db, req.value.pvzId, freshId, faults)
    ensures r.response.code == StatusCreated ==>
      var started := ReceptionHandlers.NewReception(freshId, now, req.value.pvzId);
      r.response.body == ReceptionBody(started) && r.db == db.(receptions := db.receptions + [started])
    ensures Valid(db) ==> Valid(r.db)
  {
    if req.None? then Refuse(db, StatusBadRequest, InvalidBodyMessage)
    else if !role.AsUserRole? then Refuse(db, StatusInternalServerError, RoleFetchMessage)
    else if IsEmployee(role.role) then ReceptionHandlers.StartIfNoneOpen(db, req.value.pvzId, freshId, now, faults)
    else Refuse(db, StatusForbidden, ForbiddenMessage)
  }

  /** `DeleteLast` (POST /pvz/{pvzId}/delete_last_product). */
  function DeleteLast(db: Db, pvzIdText: string, parseUuid: string -> Option<Uuid>, role: ContextRole, faults: set<Call>): (r: Reply)
    ensures r.response.code != StatusOK ==> r.db == db
    ensures parseUuid(pvzIdText).None? ==> r == Refuse(db, StatusBadRequest, InvalidPvzIdMessage)
    ensures parseUuid(pvzIdText).Some? && !ReceptionRepo.GetLast(db, parseUuid(pvzIdText).value, faults).Ok?
            ==> r == Refuse(db, StatusInternalServerError, GetLastFailedMessage)
    ensures parseUuid(pvzIdText).Some? && ReceptionRepo.GetLast(db, parseUuid(pvzIdText).value, faults).Ok? ==>
      && (!role.AsUserRole? ==> r == Refuse(db, StatusInternalServerError, RoleFetchMessage))
      && (role.AsUserRole? && !IsEmployee(role.role) ==> r == Refuse(db, StatusForbidden, ForbiddenMessage))
      && (role.AsUserRole? && IsEmployee(role.role) && r.response.code != StatusOK
          ==> r == Refuse(db, StatusInternalServerError, ReceptionHandlers.RemoveFailedMessage))
    ensures r.response.code == StatusOK <==>
      && parseUuid(pvzIdText).Some?
      && ReceptionRepo.GetLast(db, parseUuid(pvzIdText).value, faults).Ok?
      && role.AsUserRole? && IsEmployee(role.role)
      && ProductUseCase.RemoveFromReception(db, ReceptionRepo.GetLast(db, parseUuid(pvzIdText).value, faults).value.id, faults).Ok?
    ensures r.response.code == StatusOK ==>
      var pvzId := parseUuid(pvzIdText).value;
      var latest := db.receptions[ReceptionRepo.Latest(db.receptions, pvzId).value];
      && role == AsUserRole(EmployeeRole)
      && r.response.body == NullBody
      && ReceptionRepo.OpenIn(db.receptions, latest.id)
      && ProductRepo.Newest(db.products, latest.id).Some?
      && var k := ProductRepo.Newest(db.products, latest.id).value;
         && db.products[k].receptionId == latest.id
         && r.db.products == db.products[..k] + db.products[k + 1..]
         && r.db.receptions == db.receptions
    ensures Valid(db) ==> Valid(r.db)
  {
    match parseUuid(pvzIdText)
    case None => Refuse(db, StatusBadRequest, InvalidPvzIdMessage)
    case Some(pvzId) =>
      var last := ReceptionUseCase.GetLastReception(db, pvzId, faults);
      if last.err.Some? then Refuse(db, StatusInternalServerError, GetLastFailedMessage)
      else if !role.AsUserRole? then Refuse(db, StatusInternalServerError, RoleFetchMessage)
      else if IsEmployee(role.role) then ReceptionHandlers.RemoveNewest(db, last.reception.id, faults)
      else Refuse(db, StatusForbidden, ForbiddenMessage)
  }

  /** The product an add request creates: fresh id, current time, attached to the latest reception. */
  function NewProduct(freshId: Uuid, now: Time, productType: string, receptionId: Uuid): Product {
    Product(freshId, now, productType, receptionId)
  }

  /** `AddProduct` (POST /products). */
  function AddProduct(db: Db, req: Option<ProductRequest>, role: ContextRole, freshId: Uuid, now: Time, faults: set<Call>): (r: Reply)
    ensures r.response.code != StatusCreated ==> r.db == db
    ensures req.None? ==> r == Refuse(db, StatusBadRequest, InvalidBodyMessage)
    ensures req.Some? && !ReceptionRepo.GetLast(db, req.value.pvzId, faults).Ok?
            ==> r == Refuse(db, StatusInternalServerError, GetLastFailedMessage)
    ensures req.Some? && ReceptionRepo.GetLast(db, req.value.pvzId, faults).Ok? ==>
      && (!role.AsUserRole? ==> r == Refuse(db, StatusInternalServerError, RoleFetchMessage))
      && (role.AsUserRole? && !ValidProductType(req.value.productType) ==> r == Refuse(db, StatusBadRequest, InvalidTypeMessage))
      && (role.AsUserRole? && ValidProductType(req.value.productType) && !IsEmployee(role.role)
          ==> r == Refuse(db, StatusForbidden, ForbiddenMessage))
      && (role.AsUserRole? && ValidProductType(req.value.productType) && IsEmployee(role.role) && r.response.code != StatusCreated
          ==> r == Refuse(db, StatusInternalServerError, AddFailedMessage))
    ensures r.response.code == StatusCreated <==>
      && req.Some?
      && ReceptionRepo.GetLast(db, req.value.pvzId, faults).Ok?
      && role.AsUserRole? && ValidProductType(req.value.productType) && IsEmployee(role.role)
      && ProductUseCase.AddNew(db, NewProduct(freshId, now, req.value.productType,
                                              ReceptionRepo.GetLast(db, req.value.pvzId, faults).value.id), faults).Ok?
    ensures r.response.code == StatusCreated ==>
      var latest := ReceptionRepo.GetLast(db, req.value.pvzId, faults).value;
      var added := NewProduct(freshId, now, req.value.productType, latest.id);
      && role == AsUserRole(EmployeeRole)
      && ValidProductType(req.value.productType)
      && ReceptionRepo.OpenIn(db.receptions, latest.id)
      && r.response.body == ProductBody(added)
      && r.response.body.product.receptionId == latest.id
      && r.db.products == db.products + [added.(dateTime := db.clock)]
      && r.db.receptions == db.receptions
    ensures Valid(db) ==> Valid(r.db)
  {
    if req.None? then Refuse(db, StatusBadRequest, InvalidBodyMessage)
    else
      var last := ReceptionUseCase.GetLastReception(db, req.value.pvzId, faults);
      if last.err.Some? then Refuse(db, StatusInternalServerError, GetLastFailedMessage)
      else if !role.AsUserRole? then Refuse(db, StatusInternalServerError, RoleFetchMessage)
      else if !ValidProductType(req.value.productType) then Refuse(db, StatusBadRequest, InvalidTypeMessage)
      else
        var product := NewProduct(freshId, now, req.value.productType, last.reception.id);
        if IsEmployee(role.role) then
          match ProductUseCase.AddNew(db, product, faults)
          case Err(_) => Refuse(db, StatusInternalServerError, AddFailedMessage)
          case Ok(next) =>
            assert next.products == db.products + [product.(dateTime := db.clock)] by {
              assert next.products == next.products[..|db.products|] + next.products[|db.products|..];
            }
            Reply(Response(StatusCreated, ProductBody(product)), next)
        else Refuse(db, StatusForbidden, ForbiddenMessage)
  }

  /** On a well-formed database an employee's add of a valid product type
      succeeds exactly when the latest reception is `in_progress`, no query
      fails, and the fresh product id is not taken. */
  lemma AddProductSucceedsIffLatestOpen(db: Db, req: ProductRequest, freshId: Uuid, now: Time, faults: set<Call>)
    requires Valid(db)
    requires ReceptionRepo.GetLast(db, req.pvzId, faults).Ok?
    requires ValidProductType(req.productType)
    ensures var latest := ReceptionRepo.GetLast(db, req.pvzId, faults).value;
            AddProduct(db, Some(req), AsUserRole(EmployeeRole), freshId, now, faults).response.code == StatusCreated <==>
              && latest.status == InProgressStatus
              && IsOpenCall(latest.id) !in faults
              && AddOneCall(freshId) !in faults && !HasProduct(db.products, freshId)
  {
    ReceptionRepo.IsOpenLatest(db, req.pvzId, faults);
  }

  /** On a well-formed database an employee's add to a closed latest reception
      fails with 500 and writes nothing. */
  lemma AddProductRefusesClosed(db: Db, req: ProductRequest, freshId: Uuid, now: Time, faults: set<Call>)
    requires Valid(db)
    requires ReceptionRepo.GetLast(db, req.pvzId, faults).Ok?
    requires ReceptionRepo.GetLast(db, req.pvzId, faults).value.status != InProgressStatus
    requires ValidProductType(req.productType)
    ensures AddProduct(db, Some(req), AsUserRole(EmployeeRole), freshId, now, faults)
            == Refuse(db, StatusInternalServerError, AddFailedMessage)
  {
    var i := ReceptionRepo.Latest(db.receptions, req.pvzId).value;
    var latest := db.receptions[i];
    forall j | 0 <= j < |db.receptions| && db.receptions[j].id == latest.id
      ensures db.receptions[j].status != InProgressStatus
    {
      assert j == i;
    }
  }
}

=== FILE: jwt.dfy ===
/** The JWT middleware in front of every authenticated route: it checks the
    `Authorization` header and puts the token's email and role into the
    request context, the role as a plain string. */
module Jwt {
  import opened Models
  import opened Web
  import HttpPvzHandlers
  import HttpReceptionHandlers
  import ReceptionRepo
  import Store

  const BearerPrefix := "Bearer "
  const MissingTokenMessage := "missing token"
  const TokenFormatMessage := "invalid token format"
  const BadTokenMessage := "invalid or expired token"
  const MissingEmailMessage := "invalid token payload: missing email"
  const MissingRoleMessage := "invalid token payload: missing role"

  /** A claim value as decoded from the token: a string or anything else. */
  datatype Claim = StrClaim(s: string) | OtherClaim

  datatype Outcome =
    | Authenticated(email: string, role: string)
    | Unauthorized(message: string)

  predicate HasPrefix(s: string, prefix: string) {
    |prefix| <= |s| && s[..|prefix|] == prefix
  }

  /** `strings.TrimPrefix`: drops the prefix when present, else returns the input. */
  function TrimPrefix(s: string, prefix: string): (r: string)
    ensures HasPrefix(s, prefix) ==> s == prefix + r
    ensures !HasPrefix(s, prefix) ==> r == s
  {
    if HasPrefix(s, prefix) then s[|prefix|..] else s
  }

  /** The trimmed header differs from the header exactly when it carries a
      non-empty prefix, which is how the middleware tells that `Bearer ` was there. */
  lemma TrimChangesIffPrefixed(s: string, prefix: string)
    ensures TrimPrefix(s, prefix) != s <==> HasPrefix(s, prefix) && prefix != ""
  {
    if HasPrefix(s, prefix) && prefix != "" {
      assert |TrimPrefix(s, prefix)| < |s|;
    }
  }

  /** A non-empty string claim, the only kind the middleware accepts. */
  function StringClaim(claims: map<string, Claim>, key: string): (r: Option<string>)
    ensures r.Some? <==> key in claims && claims[key].StrClaim? && claims[key].s != ""
    ensures r.Some? ==> r.value == claims[key].s
  {
    if key in claims && claims[key].StrClaim? && claims[key].s != "" then Some(claims[key].s) else None
  }

  /** The middleware. Every refusal is a 401 carrying the message. `parseToken`
      stands for signature and expiry checking. */
  function Authenticate(header: string, parseToken: string -> Option<map<string, Claim>>): (r: Outcome)
    ensures header == "" ==> r == Unauthorized(MissingTokenMessage)
    ensures header != "" && !HasPrefix(header, BearerPrefix) ==> r == Unauthorized(TokenFormatMessage)
    ensures HasPrefix(header, BearerPrefix) && parseToken(header[|BearerPrefix|..]).None?
            ==> r == Unauthorized(BadTokenMessage)
    ensures HasPrefix(header, BearerPrefix) && parseToken(header[|BearerPrefix|..]).Some?
            && StringClaim(parseToken(header[|BearerPrefix|..]).value, "email").None?
            ==> r == Unauthorized(MissingEmailMessage)
    ensures HasPrefix(header, BearerPrefix) && parseToken(header[|BearerPrefix|..]).Some?
            && StringClaim(parseToken(header[|BearerPrefix|..]).value, "email").Some?
            && StringClaim(parseToken(header[|BearerPrefix|..]).value, "role").None?
            ==> r == Unauthorized(MissingRoleMessage)
    ensures r.Authenticated? <==>
      && HasPrefix(header, BearerPrefix)
      && parseToken(header[|BearerPrefix|..]).Some?
      && StringClaim(parseToken(header[|BearerPrefix|..]).value, "email").Some?
      && StringClaim(parseToken(header[|BearerPrefix|..]).value, "role").Some?
    ensures r.Authenticated? ==>
      var claims := parseToken(header[|BearerPrefix|..]).value;
      && r.email != "" && r.role != ""
      && Some(r.email) == StringClaim(claims, "email")
      && Some(r.role) == StringClaim(claims, "role")
  {
    if header == "" then Unauthorized(MissingTokenMessage)
    else
      var token := TrimPrefix(header, BearerPrefix);
      TrimChangesIffPrefixed(header, BearerPrefix);
      if token == header then Unauthorized(TokenFormatMessage)
      else match parseToken(token)
        case None => Unauthorized(BadTokenMessage)
        case Some(claims) =>
          match StringClaim(claims, "email")
          case None => Unauthorized(MissingEmailMessage)
          case Some(email) =>
            match StringClaim(claims, "role")
            case None => Unauthorized(MissingRoleMessage)
            case Some(role) => Authenticated(email, role)
  }

  /** The role the middleware leaves in the request context. */
  function ContextRoleOf(o: Outcome): ContextRole
    requires o.Authenticated?
  {
    AsString(o.role)
  }

  /** The `http` tree's handlers that assert a typed role (both `Create`s,
      `DeleteLast` and `AddProduct`) find a string behind this middleware, so
      every request that reaches the role check gets 500 "failed to fetch user
      role", whatever role the token carries. */
  lemma HttpTypedHandlersRejectMiddlewareRole(db: Store.Db, header: string, parseToken: string -> Option<map<string, Claim>>,
                                              pvzReq: PvzRequest, receptionReq: ReceptionRequest, productReq: ProductRequest,
                                              pvzIdText: string, parseUuid: string -> Option<Uuid>,
                                              freshId: Uuid, now: Time, faults: set<Store.Call>)
    requires Authenticate(header, parseToken).Authenticated?
    ensures var role := ContextRoleOf(Authenticate(header, parseToken));
            HttpPvzHandlers.Create(db, Some(pvzReq), role, freshId, now, faults)
            == Refuse(db, StatusInternalServerError, RoleFetchMessage)
    ensures var role := ContextRoleOf(Authenticate(header, parseToken));
            HttpReceptionHandlers.Create(db, Some(receptionReq), role, freshId, now, faults)
            == Refuse(db, StatusInternalServerError, RoleFetchMessage)
    ensures ReceptionRepo.GetLast(db, productReq.pvzId, faults).Ok? ==>
            var role := ContextRoleOf(Authenticate(header, parseToken));
            HttpReceptionHandlers.AddProduct(db, Some(productReq), role, freshId, now, faults)
            == Refuse(db, StatusInternalServerError, RoleFetchMessage)
    ensures parseUuid(pvzIdText).Some? && ReceptionRepo.GetLast(db, parseUuid(pvzIdText).value, faults).Ok? ==>
            var role := ContextRoleOf(Authenticate(header, parseToken));
            HttpReceptionHandlers.DeleteLast(db, pvzIdText, parseUuid, role, faults)
            == Refuse(db, StatusInternalServerError, RoleFetchMessage)
  {
  }
}

=== FILE: lifecycle.dfy ===
/** The reception lifecycle across requests: a pickup point has at most one
    `in_progress` reception, and it is the latest one. */
module Lifecycle {
  import opened Models
  import opened Dto
  import opened Store
  import opened Web
  import ReceptionRepo
  import ReceptionHandlers
  import HttpReceptionHandlers
  import PvzHandlers
  import HttpPvzHandlers

  /** Every `in_progress` reception is the latest reception of its pickup point. */
  ghost predicate OneOpen(rs: seq<Reception>) {
    forall i :: 0 <= i < |rs| && rs[i].status == InProgressStatus ==> ReceptionRepo.Latest(rs, rs[i].pvzId) == Some(i)
  }

  lemma AtMostOneOpen(rs: seq<Reception>, i: nat, j: nat)
    requires OneOpen(rs)
    requires i < |rs| && j < |rs| && rs[i].pvzId == rs[j].pvzId
    requires rs[i].status == InProgressStatus && rs[j].status == InProgressStatus
    ensures i == j
  {
  }

  /** No reception row is dated after `now`: the handler's clock has not gone back. */
  ghost predicate NotBefore(rs: seq<Reception>, now: Time) {
    forall j :: 0 <= j < |rs| ==> rs[j].dateTime <= now
  }

  /** Appending an `in_progress` reception keeps the invariant when the pickup
      point's latest reception is not open and the new one is dated no earlier
      than any existing row. */
  lemma {:induction false} AppendKeepsOneOpen(rs: seq<Reception>, x: Reception)
    requires OneOpen(rs)
    requires !ReceptionRepo.LatestIsOpen(rs, x.pvzId)
    requires NotBefore(rs, x.dateTime)
    ensures OneOpen(rs + [x])
  {
    var after := rs + [x];
    assert ReceptionStamps(after) == ReceptionStamps(rs) + [Stamp(x.pvzId, x.dateTime)];
    NewestAppendLatest(ReceptionStamps(rs), Stamp(x.pvzId, x.dateTime));
    forall i | 0 <= i < |after| && after[i].status == InProgressStatus
      ensures ReceptionRepo.Latest(after, after[i].pvzId) == Some(i)
    {
      if i < |rs| {
        assert after[i] == rs[i];
        assert ReceptionRepo.Latest(rs, rs[i].pvzId) == Some(i);
        if rs[i].pvzId == x.pvzId {
          assert false;
        }
        NewestAppendOther(ReceptionStamps(rs), Stamp(x.pvzId, x.dateTime), rs[i].pvzId);
      }
    }
  }

  /** Changing statuses only (the stamps stay put) never creates a second open
      reception, provided no row becomes `in_progress`. */
  lemma {:induction false} RestatusKeepsOneOpen(rs: seq<Reception>, after: seq<Reception>)
    requires OneOpen(rs)
    requires ReceptionStamps(after) == ReceptionStamps(rs)
    requires forall i :: 0 <= i < |after| && after[i].status == InProgressStatus ==> rs[i].status == InProgressStatus
    ensures OneOpen(after)
  {
    forall i | 0 <= i < |after| && after[i].status == InProgressStatus
      ensures ReceptionRepo.Latest(after, after[i].pvzId) == Some(i)
    {
      assert |after| == |ReceptionStamps(after)| == |rs|;
      assert ReceptionStamps(after)[i] == ReceptionStamps(rs)[i];
      assert after[i].pvzId == rs[i].pvzId;
    }
  }

  /** Each request the server routes, with everything the handler takes from
      outside: body, role in the context, generated id, clock, store faults. */
  datatype Step =
    | StartStep(reception: Option<ReceptionRequest>, role: ContextRole, freshId: Uuid, now: Time, faults: set<Call>)
    | CloseStep(pvzIdText: string, role: ContextRole, faults: set<Call>)
    | DeleteStep(pvzIdText: string, role: ContextRole, faults: set<Call>)
    | AddStep(product: Option<ProductRequest>, role: ContextRole, freshId: Uuid, now: Time, faults: set<Call>)
    | PvzStep(pvz: Option<PvzRequest>, role: ContextRole, freshId: Uuid, now: Time, faults: set<Call>)
    | ListStep(query: PvzHandlers.PageQuery, faults: set<Call>)

  /** One request against the database. */
  function Apply(db: Db, step: Step, parseUuid: string -> Option<Uuid>, atoi: string -> Option<int>,
                 parseTime: string -> Option<Time>): (r: Reply)
    ensures step.ListStep? ==> r.db == db
    ensures Valid(db) ==> Valid(r.db)
  {
    match step
    case StartStep(req, role, freshId, now, faults) => ReceptionHandlers.Create(db, req, role, freshId, now, faults)
    case CloseStep(text, role, faults) => PvzHandlers.CloseLast(db, text, parseUuid, role, faults)
    case DeleteStep(text, role, faults) => ReceptionHandlers.DeleteLast(db, text, parseUuid, role, faults)
    case AddStep(req, role, freshId, now, faults) => HttpReceptionHandlers.AddProduct(db, req, role, freshId, now, faults)
    case PvzStep(req, role, freshId, now, faults) => PvzHandlers.Create(db, req, role, freshId, now, faults)
    case ListStep(q, faults) => Reply(PvzHandlers.GetAll(db, q, atoi, parseTime, faults), db)
  }

  /** A start request whose clock reads no earlier than every stored reception. */
  ghost predicate Timely(db: Db, step: Step) {
    step.StartStep? ==> NotBefore(db.receptions, step.now)
  }

  /** One request keeps the invariant when its clock has not gone back. */
  lemma StepKeepsOneOpen(db: Db, step: Step, parseUuid: string -> Option<Uuid>, atoi: string -> Option<int>,
                         parseTime: string -> Option<Time>)
    requires OneOpen(db.receptions)
    requires Timely(db, step)
    ensures OneOpen(Apply(db, step, parseUuid, atoi, parseTime).db.receptions)
  {
    var r := Apply(db, step, parseUuid, atoi, parseTime);
    match step
    case StartStep(req, role, freshId, now, faults) =>
      if r.response.code == StatusCreated {
        AppendKeepsOneOpen(db.receptions, ReceptionHandlers.NewReception(freshId, now, req.value.pvzId));
      }
    case CloseStep(text, role, faults) =>
      if r.response.code == StatusOK {
        var i := ReceptionRepo.Latest(db.receptions, parseUuid(text).value).value;
        assert r.db.receptions == db.receptions[i := db.receptions[i].(status := CloseStatus)];
        assert ReceptionStamps(r.db.receptions) == ReceptionStamps(db.receptions);
        RestatusKeepsOneOpen(db.receptions, r.db.receptions);
      }
    case DeleteStep(_, _, _) =>
    case AddStep(_, _, _, _, _) =>
    case PvzStep(_, _, _, _, _) =>
    case ListStep(_, _) =>
  }

  /** The database after serving the requests in order. */
  function Run(db: Db, steps: seq<Step>, parseUuid: string -> Option<Uuid>, atoi: string -> Option<int>,
               parseTime: string -> Option<Time>): (r: Db)
    ensures Valid(db) ==> Valid(r)
    decreases |steps|
  {
    if |steps| == 0 then db
    else Run(Apply(db, steps[0], parseUuid, atoi, parseTime).db, steps[1..], parseUuid, atoi, parseTime)
  }

  /** Every start request in the run reads a clock no earlier than the receptions stored by then. */
  ghost predicate TimelyRun(db: Db, steps: seq<Step>, parseUuid: string -> Option<Uuid>, atoi: string -> Option<int>,
                            parseTime: string -> Option<Time>)
    decreases |steps|
  {
    |steps| == 0 ||
    (Timely(db, steps[0]) && TimelyRun(Apply(db, steps[0], parseUuid, atoi, parseTime).db, steps[1..], parseUuid, atoi, parseTime))
  }

  /** From a database that satisfies the invariant, any timely run of
      requests ends in one that satisfies it. */
  lemma {:induction false} RunKeepsOneOpen(db: Db, steps: seq<Step>, parseUuid: string -> Option<Uuid>,
                                           atoi: string -> Option<int>, parseTime: string -> Option<Time>)
    requires OneOpen(db.receptions)
    requires TimelyRun(db, steps, parseUuid, atoi, parseTime)
    ensures OneOpen(Run(db, steps, parseUuid, atoi, parseTime).receptions)
    decreases |steps|
  {
    if |steps| > 0 {
      StepKeepsOneOpen(db, steps[0], parseUuid, atoi, parseTime);
      RunKeepsOneOpen(Apply(db, steps[0], parseUuid, atoi, parseTime).db, steps[1..], parseUuid, atoi, parseTime);
    }
  }

  /** The `http` tree's `Create` makes the same decision as the routed one
      when the role is passed in the form each expects, so it keeps the
      invariant too. */
  lemma HttpCreateKeepsOneOpen(db: Db, req: Option<ReceptionRequest>, role: string, freshId: Uuid, now: Time, faults: set<Call>)
    requires OneOpen(db.receptions)
    requires NotBefore(db.receptions, now)
    ensures OneOpen(HttpReceptionHandlers.Create(db, req, AsUserRole(role), freshId, now, faults).db.receptions)
  {
    var r := HttpReceptionHandlers.Create(db, req, AsUserRole(role), freshId, now, faults);
    if r.response.code == StatusCreated {
      AppendKeepsOneOpen(db.receptions, ReceptionHandlers.NewReception(freshId, now, req.value.pvzId));
    }
  }

  lemma HttpCloseKeepsOneOpen(db: Db, pvzIdText: string, parseUuid: string -> Option<Uuid>, role: ContextRole, faults: set<Call>)
    requires OneOpen(db.receptions)
    ensures OneOpen(HttpPvzHandlers.CloseLast(db, pvzIdText, parseUuid, role, faults).db.receptions)
  {
    HttpPvzHandlers.CloseLastAgreesWithRouted(db, pvzIdText, parseUuid, role, faults);
    StepKeepsOneOpen(db, CloseStep(pvzIdText, role, faults), parseUuid, x => None, x => None);
  }

  /** The invariant needs the clock: a start whose clock reads earlier than a
      closed reception of the same pickup point leaves the new `in_progress`
      row behind the closed one, so the next start is let through as well and
      two receptions are open at once. */
  lemma ClockSkewOpensTwo()
    ensures var closed := Reception(1, 10, 7, CloseStatus);
            var db := Db([], [closed], [], 0);
            var first := ReceptionHandlers.Create(db, Some(ReceptionRequest(7)), AsString(EmployeeRole), 2, 5, {});
            var second := ReceptionHandlers.Create(first.db, Some(ReceptionRequest(7)), AsString(EmployeeRole), 3, 6, {});
            && OneOpen(db.receptions)
            && first.response.code == StatusCreated
            && !OneOpen(first.db.receptions)
            && second.response.code == StatusCreated
            && second.db.receptions[1].status == InProgressStatus
            && second.db.receptions[2].status == InProgressStatus
            && second.db.receptions[1].pvzId == second.db.receptions[2].pvzId
  {
    var closed := Reception(1, 10, 7, CloseStatus);
    var db := Db([], [closed], [], 0);
    var rs1 := [closed, Reception(2, 5, 7, InProgressStatus)];
    assert ReceptionStamps(rs1) == [Stamp(7, 10), Stamp(7, 5)];
    assert ReceptionRepo.Latest(rs1, 7) == Some(0) by {
      NewestIsUnique(ReceptionStamps(rs1), 7, 0);
    }
    assert !ReceptionRepo.LatestIsOpen(rs1, 7);
    assert !HasReception(rs1, 3);
  }
}

=== FILE: models.dfy ===
/** Records shared by every layer of the pickup-point backend: the rows of the
    three tables, the error kinds the stores and use cases report, and the
    Option/Result wrappers used for Go's `(value, error)` returns. */
module Models {

  /** A UUID, abstracted to a natural number; `uuid.Nil` is 0. */
  type Uuid = nat
  const NilUuid: Uuid := 0

  /** A `time.Time`, abstracted to a natural number; the zero time is 0. */
  type Time = nat
  const ZeroTime: Time := 0

  datatype Option<+T> = None | Some(value: T)

  /** What a store or use case reports instead of `nil`.
      NoRows is `sql.ErrNoRows`; DbFailure is any other database error;
      Conflict carries the message of an `errors.New` raised by a use case. */
  datatype Error = NoRows | DbFailure | Conflict(message: string)

  datatype Result<+T> = Ok(value: T) | Err(error: Error)

  /** A row of the `receptions` table; `status` is free text in the table. */
  datatype Reception = Reception(id: Uuid, dateTime: Time, pvzId: Uuid, status: string)

  /** The zero `models.Reception{}` a failed lookup hands back. */
  const ZeroReception: Reception := Reception(NilUuid, ZeroTime, NilUuid, "")

  /** A row of the `products` table. */
  datatype Product = Product(id: Uuid, dateTime: Time, productType: string, receptionId: Uuid)

  /** A row of the `pvz` table (a pickup point). */
  datatype Pvz = Pvz(id: Uuid, registrationDate: Time, city: string)
}

=== FILE: product_repo.dfy ===
/** The product repository (`ProductRepo` over the `products` table). */
module ProductRepo {
  import opened Models
  import opened Store

  /** Index of the newest product of a reception: the row with the greatest
      `date_time` (on a tie, the row inserted last). */
  function Newest(ps: seq<Product>, receptionId: Uuid): (r: Option<nat>)
    ensures r.Some? ==> r.value < |ps| && ps[r.value].receptionId == receptionId
    ensures r.Some? ==> forall j :: 0 <= j < |ps| && ps[j].receptionId == receptionId ==> ps[j].dateTime <= ps[r.value].dateTime
    ensures r.None? <==> forall j :: 0 <= j < |ps| ==> ps[j].receptionId != receptionId
  {
    var s := ProductStamps(ps);
    var r := NewestOf(s, receptionId);
    assert r.Some? ==> s[r.value] == Stamp(ps[r.value].receptionId, ps[r.value].dateTime);
    r
  }

  /** The products of one reception, in table order. */
  function OfReception(ps: seq<Product>, receptionId: Uuid): (r: seq<Product>)
    ensures forall p :: p in r <==> p in ps && p.receptionId == receptionId
    ensures |r| <= |ps|
  {
    if |ps| == 0 then []
    else (if ps[0].receptionId == receptionId then [ps[0]] else []) + OfReception(ps[1..], receptionId)
  }

  lemma {:induction false} OfReceptionAppend(a: seq<Product>, b: seq<Product>, receptionId: Uuid)
    ensures OfReception(a + b, receptionId) == OfReception(a, receptionId) + OfReception(b, receptionId)
  {
    if |a| == 0 {
      assert a + b == b;
    } else {
      assert (a + b)[1..] == a[1..] + b;
      OfReceptionAppend(a[1..], b, receptionId);
    }
  }

  ghost predicate OldestFirst(s: seq<Product>) {
    forall i, j :: 0 <= i < j < |s| ==> s[i].dateTime < s[j].dateTime
  }

  lemma TailAfterHead(ps: seq<Product>)
    requires OldestFirst(ps) && |ps| > 0
    ensures forall y :: y in ps[1..] ==> ps[0].dateTime < y.dateTime
  {
    forall y | y in ps[1..]
      ensures ps[0].dateTime < y.dateTime
    {
      var k :| 0 <= k < |ps[1..]| && ps[1..][k] == y;
      assert ps[k + 1] == y;
    }
  }

  lemma PrependOldest(x: Product, s: seq<Product>)
    requires OldestFirst(s)
    requires forall y :: y in s ==> x.dateTime < y.dateTime
    ensures OldestFirst([x] + s)
  {
    var r := [x] + s;
    forall i, j | 0 <= i < j < |r|
      ensures r[i].dateTime < r[j].dateTime
    {
      if i == 0 {
        assert r[j] == s[j - 1] && s[j - 1] in s;
      } else {
        assert r[i] == s[i - 1] && r[j] == s[j - 1];
      }
    }
  }

  lemma {:induction false} OfReceptionKeepsOrder(ps: seq<Product>, receptionId: Uuid)
    requires OldestFirst(ps)
    ensures OldestFirst(OfReception(ps, receptionId))
  {
    if |ps| > 0 {
      assert OldestFirst(ps[1..]);
      OfReceptionKeepsOrder(ps[1..], receptionId);
      var rest := OfReception(ps[1..], receptionId);
      if ps[0].receptionId == receptionId {
        TailAfterHead(ps);
        assert forall y :: y in rest ==> y in ps[1..];
        PrependOldest(ps[0], rest);
      }
    }
  }

  lemma {:induction false} OfReceptionNone(ps: seq<Product>, receptionId: Uuid)
    requires forall j :: 0 <= j < |ps| ==> ps[j].receptionId != receptionId
    ensures OfReception(ps, receptionId) == []
  {
    if |ps| > 0 {
      OfReceptionNone(ps[1..], receptionId);
    }
  }

  /** `AddOne`: inserts the product; the row's `date_time` is the database's
      own clock, not the value the caller put in the record. */
  function AddOne(db: Db, product: Product, faults: set<Call>): (r: Result<Db>)
    ensures r.Ok? <==> AddOneCall(product.id) !in faults && !HasProduct(db.products, product.id)
    ensures r.Err? ==> r.error == DbFailure
    ensures r.Ok? ==> |r.value.products| == |db.products| + 1
    ensures r.Ok? ==> r.value.products[..|db.products|] == db.products
    ensures r.Ok? ==> r.value.products[|db.products|] == product.(dateTime := db.clock)
    ensures r.Ok? ==> r.value.receptions == db.receptions && r.value.pvzs == db.pvzs && r.value.clock > db.clock
    ensures r.Ok? && Valid(db) ==> Valid(r.value)
    ensures r.Ok? && Valid(db) ==> Newest(r.value.products, product.receptionId) == Some(|db.products|)
  {
    if AddOneCall(product.id) in faults || HasProduct(db.products, product.id) then Err(DbFailure)
    else
      var ps := db.products + [product.(dateTime := db.clock)];
      assert ProductStamps(ps) == ProductStamps(db.products) + [Stamp(product.receptionId, db.clock)];
      assert Valid(db) ==> NewestOf(ProductStamps(ps), product.receptionId) == Some(|db.products|) by {
        if Valid(db) {
          NewestAppendLatest(ProductStamps(db.products), Stamp(product.receptionId, db.clock));
        }
      }
      Ok(db.(products := ps, clock := db.clock + 1))
  }

  lemma RemoveKeepsValid(db: Db, i: nat)
    requires Valid(db) && i < |db.products|
    ensures Valid(db.(products := db.products[..i] + db.products[i + 1..]))
  {
    var ps := db.products;
    var qs := ps[..i] + ps[i + 1..];
    assert forall a :: 0 <= a < |qs| ==> qs[a] == ps[if a < i then a else a + 1];
  }

  /** `DeleteLast`: in one transaction, select the newest product of the
      reception and delete it. A failure at any step rolls back. */
  function DeleteLast(db: Db, receptionId: Uuid, faults: set<Call>): (r: Result<Db>)
    ensures (DeleteBeginCall(receptionId) in faults || DeleteSelectCall(receptionId) in faults) ==> r == Err(DbFailure)
    ensures DeleteBeginCall(receptionId) !in faults && DeleteSelectCall(receptionId) !in faults
            && (forall j :: 0 <= j < |db.products| ==> db.products[j].receptionId != receptionId)
            ==> r == Err(NoRows)
    ensures && Newest(db.products, receptionId).Some?
            && DeleteBeginCall(receptionId) !in faults && DeleteSelectCall(receptionId) !in faults
            && (DeleteExecCall(receptionId) in faults || DeleteCommitCall(receptionId) in faults)
            ==> r == Err(DbFailure)
    ensures r.Ok? <==> && DeleteBeginCall(receptionId) !in faults && DeleteSelectCall(receptionId) !in faults
                       && DeleteExecCall(receptionId) !in faults && DeleteCommitCall(receptionId) !in faults
                       && Newest(db.products, receptionId).Some?
    ensures r.Ok? ==> var i := Newest(db.products, receptionId).value;
      && |r.value.products| == |db.products| - 1
      && r.value.products[..i] == db.products[..i]
      && r.value.products[i..] == db.products[i + 1..]
    ensures r.Ok? ==> r.value.receptions == db.receptions && r.value.pvzs == db.pvzs && r.value.clock == db.clock
    ensures r.Ok? && Valid(db) ==> Valid(r.value)
  {
    if DeleteBeginCall(receptionId) in faults then Err(DbFailure)
    else if DeleteSelectCall(receptionId) in faults then Err(DbFailure)
    else match Newest(db.products, receptionId)
      case None => Err(NoRows)
      case Some(i) =>
        if DeleteExecCall(receptionId) in faults then Err(DbFailure)
        else if DeleteCommitCall(receptionId) in faults then Err(DbFailure)
        else
          var ps := db.products[..i] + db.products[i + 1..];
          assert ps[..i] == db.products[..i] && ps[i..] == db.products[i + 1..];
          assert Valid(db) ==> Valid(db.(products := ps)) by {
            if Valid(db) {
              RemoveKeepsValid(db, i);
            }
          }
          Ok(db.(products := ps))
  }

  /** `GetForReception`: the reception's products, in table order. */
  function GetForReception(db: Db, receptionId: Uuid, faults: set<Call>): (r: Result<seq<Product>>)
    ensures r.Ok? <==> GetForReceptionCall(receptionId) !in faults
    ensures r.Err? ==> r.error == DbFailure
    ensures r.Ok? ==> forall p :: p in r.value <==> p in db.products && p.receptionId == receptionId
    ensures r.Ok? && Valid(db) ==> OldestFirst(r.value)
  {
    if GetForReceptionCall(receptionId) in faults then Err(DbFailure)
    else
      assert Valid(db) ==> OldestFirst(OfReception(db.products, receptionId)) by {
        if Valid(db) {
          OfReceptionKeepsOrder(db.products, receptionId);
        }
      }
      Ok(OfReception(db.products, receptionId))
  }

  /** Removing the last row of a reception pops its listing. */
  lemma RemoveLastOfReception(ps: seq<Product>, i: nat, receptionId: Uuid)
    requires i < |ps| && ps[i].receptionId == receptionId
    requires forall j :: i < j < |ps| ==> ps[j].receptionId != receptionId
    ensures var before := OfReception(ps, receptionId);
            |before| > 0 && OfReception(ps[..i] + ps[i + 1..], receptionId) == before[..|before| - 1]
  {
    var front, tail := ps[..i], ps[i + 1..];
    assert ps == (front + [ps[i]]) + tail;
    forall j | 0 <= j < |tail|
      ensures tail[j].receptionId != receptionId
    {
      assert tail[j] == ps[i + 1 + j];
    }
    OfReceptionNone(tail, receptionId);
    OfReceptionAppend(front + [ps[i]], tail, receptionId);
    OfReceptionAppend(front, [ps[i]], receptionId);
    OfReceptionAppend(front, tail, receptionId);
    var f := OfReception(front, receptionId);
    assert OfReception([ps[i]], receptionId) == [ps[i]];
    assert OfReception(ps, receptionId) == f + [ps[i]];
    assert OfReception(front + tail, receptionId) == f;
  }

  /** Removing a row of one reception leaves other receptions' listings alone. */
  lemma RemoveKeepsOtherListings(ps: seq<Product>, i: nat, q: Uuid)
    requires i < |ps| && ps[i].receptionId != q
    ensures OfReception(ps[..i] + ps[i + 1..], q) == OfReception(ps, q)
  {
    var front, tail := ps[..i], ps[i + 1..];
    assert ps == (front + [ps[i]]) + tail;
    OfReceptionAppend(front + [ps[i]], tail, q);
    OfReceptionAppend(front, [ps[i]], q);
    OfReceptionAppend(front, tail, q);
    assert [ps[i]][1..] == [];
    assert OfReception([ps[i]], q) == [];
    var f, t := OfReception(front, q), OfReception(tail, q);
    assert OfReception(front + [ps[i]], q) == f;
    assert OfReception(ps, q) == f + t;
  }

  /** With a well-formed table, the newest product of a reception is the last
      one of its listing, and deleting it drops exactly that entry while every
      other reception's listing stays as it was. */
  lemma DeleteLastPopsListing(db: Db, receptionId: Uuid, faults: set<Call>)
    requires Valid(db)
    requires DeleteLast(db, receptionId, faults).Ok?
    ensures var before := OfReception(db.products, receptionId);
            var after := OfReception(DeleteLast(db, receptionId, faults).value.products, receptionId);
            |before| > 0 && after == before[..|before| - 1]
    ensures forall q :: q != receptionId ==>
      OfReception(DeleteLast(db, receptionId, faults).value.products, q) == OfReception(db.products, q)
  {
    var ps := db.products;
    var i := Newest(ps, receptionId).value;
    assert DeleteLast(db, receptionId, faults).value.products == ps[..i] + ps[i + 1..];
    forall j | i < j < |ps|
      ensures ps[j].receptionId != receptionId
    {
      assert ps[i].dateTime < ps[j].dateTime;
    }
    RemoveLastOfReception(ps, i, receptionId);
    forall q | q != receptionId
      ensures OfReception(ps[..i] + ps[i + 1..], q) == OfReception(ps, q)
    {
      RemoveKeepsOtherListings(ps, i, q);
    }
  }

  /** With a well-formed table, a successful insert appends the stored row to
      its reception's listing and leaves every other listing unchanged. */
  lemma AddOneExtendsListing(db: Db, product: Product, faults: set<Call>)
    requires AddOne(db, product, faults).Ok?
    ensures OfReception(AddOne(db, product, faults).value.products, product.receptionId)
            == OfReception(db.products, product.receptionId) + [product.(dateTime := db.clock)]
    ensures forall q :: q != product.receptionId ==>
      OfReception(AddOne(db, product, faults).value.products, q) == OfReception(db.products, q)
  {
    var stored := product.(dateTime := db.clock);
    OfReceptionAppend(db.products, [stored], product.receptionId);
    assert OfReception([stored], product.receptionId) == [stored];
    forall q | q != product.receptionId
      ensures OfReception(db.products + [stored], q) == OfReception(db.products, q)
    {
      OfReceptionAppend(db.products, [stored], q);
      assert OfReception([stored], q) == [];
    }
  }

  /** `DeleteLast` never looks at the receptions table: whatever the statuses,
      the product table ends up the same. */
  lemma DeleteLastIgnoresReceptions(db: Db, rs: seq<Reception>, receptionId: Uuid, faults: set<Call>)
    ensures var a := DeleteLast(db, receptionId, faults);
            var b := DeleteLast(db.(receptions := rs), receptionId, faults);
            a.Ok? == b.Ok? && (a.Err? ==> a == b) && (a.Ok? ==> b.value == a.value.(receptions := rs))
  {
  }
}

=== FILE: product_usecase.dfy ===
/** `ProductUseCase`: product operations guarded by the reception being open. */
module ProductUseCase {
  import opened Models
  import opened Store
  import ReceptionRepo
  import ProductRepo

  const ClosedMessage := "reception is closed, unable to interact"

  /** `RemoveFromReception`: deletes the newest product of an open reception. */
  function RemoveFromReception(db: Db, receptionId: Uuid, faults: set<Call>): (r: Result<Db>)
    ensures !ReceptionRepo.IsOpen(db, receptionId, faults) ==> r == Err(Conflict(ClosedMessage))
    ensures ReceptionRepo.IsOpen(db, receptionId, faults) ==> r == ProductRepo.DeleteLast(db, receptionId, faults)
    ensures ReceptionRepo.IsOpen(db, receptionId, faults) && ProductRepo.Newest(db.products, receptionId).None?
            && DeleteBeginCall(receptionId) !in faults && DeleteSelectCall(receptionId) !in faults
            ==> r == Err(NoRows)
    ensures r.Ok? ==> r.value.receptions == db.receptions
    ensures r.Ok? && Valid(db) ==> Valid(r.value)
  {
    if !ReceptionRepo.IsOpen(db, receptionId, faults) then Err(Conflict(ClosedMessage))
    else ProductRepo.DeleteLast(db, receptionId, faults)
  }

  /** `AddNew`: inserts a product into an open reception. */
  function AddNew(db: Db, product: Product, faults: set<Call>): (r: Result<Db>)
    ensures !ReceptionRepo.IsOpen(db, product.receptionId, faults) ==> r == Err(Conflict(ClosedMessage))
    ensures ReceptionRepo.IsOpen(db, product.receptionId, faults) ==> r == ProductRepo.AddOne(db, product, faults)
    ensures r.Ok? ==> r.value.receptions == db.receptions
    ensures r.Ok? && Valid(db) ==> Valid(r.value)
  {
    if !ReceptionRepo.IsOpen(db, product.receptionId, faults) then Err(Conflict(ClosedMessage))
    else ProductRepo.AddOne(db, product, faults)
  }

  /** `GetReceptionList`: the products of a reception, but only while it is open. */
  function GetReceptionList(db: Db, receptionId: Uuid, faults: set<Call>): (r: Result<seq<Product>>)
    ensures !ReceptionRepo.IsOpen(db, receptionId, faults) ==> r == Err(Conflict(ClosedMessage))
    ensures r.Ok? <==> ReceptionRepo.IsOpen(db, receptionId, faults) && GetForReceptionCall(receptionId) !in faults
    ensures r.Ok? ==> forall p :: p in r.value <==> p in db.products && p.receptionId == receptionId
    ensures r.Ok? && Valid(db) ==> ProductRepo.OldestFirst(r.value)
  {
    if !ReceptionRepo.IsOpen(db, receptionId, faults) then Err(Conflict(ClosedMessage))
    else ProductRepo.GetForReception(db, receptionId, faults)
  }

  /** LIFO round trip: on a well-formed database, adding a product and then
      removing the last one restores every table; only the clock moved on. */
  lemma AddThenRemoveRestores(db: Db, product: Product, faults: set<Call>)
    requires Valid(db)
    requires AddNew(db, product, faults).Ok?
    requires DeleteBeginCall(product.receptionId) !in faults && DeleteSelectCall(product.receptionId) !in faults
    requires DeleteExecCall(product.receptionId) !in faults && DeleteCommitCall(product.receptionId) !in faults
    ensures RemoveFromReception(AddNew(db, product, faults).value, product.receptionId, faults)
            == Ok(db.(clock := AddNew(db, product, faults).value.clock))
  {
    var mid := AddNew(db, product, faults).value;
    assert ReceptionRepo.IsOpen(mid, product.receptionId, faults);
    var n := |db.products|;
    assert ProductRepo.Newest(mid.products, product.receptionId) == Some(n);
    assert mid.products[..n] == db.products;
    var after := ProductRepo.DeleteLast(mid, product.receptionId, faults).value;
    assert after.products == after.products[..n];
    assert after.products == db.products;
  }

  /** Products are added or removed only through an open reception: on a
      closed or unknown reception both fail with the conflict and change nothing. */
  lemma ClosedReceptionIsFrozen(db: Db, product: Product, receptionId: Uuid, faults: set<Call>)
    requires Valid(db)
    requires !ReceptionRepo.OpenIn(db.receptions, receptionId)
    ensures RemoveFromReception(db, receptionId, faults) == Err(Conflict(ClosedMessage))
    ensures product.receptionId == receptionId ==> AddNew(db, product, faults) == Err(Conflict(ClosedMessage))
    ensures GetReceptionList(db, receptionId, faults) == Err(Conflict(ClosedMessage))
  {
  }
}

=== FILE: pvz_handlers.dfy ===
/** The pickup-point handlers of the routed handler tree (role read from the
    context as a plain string, dispatched by `switch`). */
module PvzHandlers {
  import opened Models
  import opened Dto
  import opened Store
  import opened Web
  import ReceptionRepo
  import ReceptionUseCase
  import ProductUseCase

  const CreatePvzFailedMessage := "failed to create pvz"
  const CloseFailedMessage := "failed to close reception"
  const InvalidPageMessage := "Invalid page parameter"
  const InvalidLimitMessage := "Invalid limit parameter"
  const InvalidStartDateMessage := "Invalid startDate parameter"
  const InvalidEndDateMessage := "Invalid endDate parameter"
  const GetPvzsFailedMessage := "Failed to get PVZs"
  const GetReceptionsFailedMessage := "Failed to get receptions"
  const GetProductsFailedMessage := "Failed to get products"

  /** The pickup point a create request stores: a nil id becomes the fresh id
      and a zero registration date becomes the current time. */
  function WithDefaults(req: PvzRequest, freshId: Uuid, now: Time): Pvz {
    Pvz(if req.id == NilUuid then freshId else req.id,
        if req.registrationDate == ZeroTime then now else req.registrationDate,
        req.city)
  }

  /** `Create` (POST /pvz): the city is stored as given, without validation. */
  function Create(db: Db, req: Option<PvzRequest>, role: ContextRole, freshId: Uuid, now: Time, faults: set<Call>): (r: Reply)
    ensures r.response.code != StatusCreated ==> r.db == db
    ensures req.None? ==> r == Refuse(db, StatusBadRequest, InvalidBodyMessage)
    ensures req.Some? && !role.AsString? ==> r == Refuse(db, StatusInternalServerError, RoleFetchMessage)
    ensures req.Some? && role == AsString(EmployeeRole) ==> r == Refuse(db, StatusForbidden, ForbiddenMessage)
    ensures req.Some? && role.AsString? && !ValidRole(role.s) ==> r == Refuse(db, StatusInternalServerError, InvalidRoleMessage)
    ensures req.Some? && role == AsString(ModeratorRole) ==>
      var p := WithDefaults(req.value, freshId, now);
      && (r.response.code == StatusCreated <==> CreatePvz(db, p, faults).Ok?)
      && (r.response.code != StatusCreated ==> r.response == Response(StatusInternalServerError, Message(CreatePvzFailedMessage)))
    ensures r.response.code == StatusCreated ==>
      && role == AsString(ModeratorRole)
      && r.response.body.PvzBody?
      && r.response.body.pvz.id == (if req.value.id == NilUuid then freshId else req.value.id)
      && r.response.body.pvz.registrationDate == (if req.value.registrationDate == ZeroTime then now else req.value.registrationDate)
      && r.response.body.pvz.city == req.value.city
      && r.db.pvzs == db.pvzs + [r.response.body.pvz]
      && r.db.receptions == db.receptions && r.db.products == db.products
    ensures Valid(db) ==> Valid(r.db)
  {
    if req.None? then Refuse(db, StatusBadRequest, InvalidBodyMessage)
    else if !role.AsString? then Refuse(db, StatusInternalServerError, RoleFetchMessage)
    else
      var p := WithDefaults(req.value, freshId, now);
      if role.s == ModeratorRole then
        match CreatePvz(db, p, faults)
        case Err(_) => Refuse(db, StatusInternalServerError, CreatePvzFailedMessage)
        case Ok(next) =>
          assert next.pvzs == next.pvzs[..|db.pvzs|] + next.pvzs[|db.pvzs|..];
          Reply(Response(StatusCreated, PvzBody(p)), next)
      else if role.s == EmployeeRole then Refuse(db, StatusForbidden, ForbiddenMessage)
      else Refuse(db, StatusInternalServerError, InvalidRoleMessage)
  }

  /** `CloseLast` (POST /pvz/{pvzId}/close_last_reception): the reply echoes the
      reception as it was read before closing. */
  function CloseLast(db: Db, pvzIdText: string, parseUuid: string -> Option<Uuid>, role: ContextRole, faults: set<Call>): (r: Reply)
    ensures r.response.code != StatusOK ==> r.db == db
    ensures parseUuid(pvzIdText).None? ==> r == Refuse(db, StatusBadRequest, InvalidPvzIdMessage)
    ensures parseUuid(pvzIdText).Some? && !ReceptionRepo.GetLast(db, parseUuid(pvzIdText).value, faults).Ok?
            ==> r == Refuse(db, StatusInternalServerError, GetLastFailedMessage)
    ensures parseUuid(pvzIdText).Some? && ReceptionRepo.GetLast(db, parseUuid(pvzIdText).value, faults).Ok? ==>
      && (!role.AsString? ==> r == Refuse(db, StatusInternalServerError, RoleFetchMessage))
      && (role == AsString(ModeratorRole) ==> r == Refuse(db, StatusForbidden, ForbiddenMessage))
      && (role.AsString? && !ValidRole(role.s) ==> r == Refuse(db, StatusInternalServerError, InvalidRoleMessage))
      && (role == AsString(EmployeeRole) && r.response.code != StatusOK
          ==> r == Refuse(db, StatusInternalServerError, CloseFailedMessage))
    ensures r.response.code == StatusOK <==>
      && parseUuid(pvzIdText).Some?
      && ReceptionRepo.GetLast(db, parseUuid(pvzIdText).value, faults).Ok?
      && role == AsString(EmployeeRole)
      && ReceptionUseCase.CloseReception(db, ReceptionRepo.GetLast(db, parseUuid(pvzIdText).value, faults).value.id,
                                         parseUuid(pvzIdText).value, faults).Ok?
    ensures r.response.code == StatusOK ==>
      var i := ReceptionRepo.Latest(db.receptions, parseUuid(pvzIdText).value).value;
      && role == AsString(EmployeeRole)
      && r.response.body == ReceptionBody(db.receptions[i])
      && r.db.receptions == db.receptions[i := db.receptions[i].(status := CloseStatus)]
      && r.db.products == db.products && r.db.pvzs == db.pvzs
    ensures Valid(db) ==> Valid(r.db)
  {
    match parseUuid(pvzIdText)
    case None => Refuse(db, StatusBadRequest, InvalidPvzIdMessage)
    case Some(pvzId) =>
      var last := ReceptionUseCase.GetLastReception(db, pvzId, faults);
      if last.err.Some? then Refuse(db, StatusInternalServerError, GetLastFailedMessage)
      else if !role.AsString? then Refuse(db, StatusInternalServerError, RoleFetchMessage)
      else if role.s == EmployeeRole then
        match ReceptionUseCase.CloseReception(db, last.reception.id, pvzId, faults)
        case Err(_) => Refuse(db, StatusInternalServerError, CloseFailedMessage)
        case Ok(next) => Reply(Response(StatusOK, ReceptionBody(last.reception)), next)
      else if role.s == ModeratorRole then Refuse(db, StatusForbidden, ForbiddenMessage)
      else Refuse(db, StatusInternalServerError, InvalidRoleMessage)
  }

  /** On a well-formed database a successful close reports status
      `in_progress` (the status read before closing), while the stored
      reception is now `close`; an already closed latest reception gives 500. */
  lemma CloseLastReportsPriorStatus(db: Db, pvzIdText: string, parseUuid: string -> Option<Uuid>, faults: set<Call>)
    requires Valid(db)
    requires parseUuid(pvzIdText).Some?
    requires ReceptionRepo.GetLast(db, parseUuid(pvzIdText).value, faults).Ok?
    ensures var r := CloseLast(db, pvzIdText, parseUuid, AsString(EmployeeRole), faults);
            var latest := ReceptionRepo.GetLast(db, parseUuid(pvzIdText).value, faults).value;
            && (latest.status != InProgressStatus ==> r == Refuse(db, StatusInternalServerError, CloseFailedMessage))
            && (r.response.code == StatusOK ==> r.response.body.reception.status == InProgressStatus)
  {
    var pvzId := parseUuid(pvzIdText).value;
    var i := ReceptionRepo.Latest(db.receptions, pvzId).value;
    var latest := db.receptions[i];
    forall j | 0 <= j < |db.receptions| && db.receptions[j].id == latest.id
      ensures j == i
    {
    }
  }

  /** On a well-formed database an employee's close succeeds exactly when the
      latest reception is `in_progress` and none of the three queries fails. */
  lemma CloseLastSucceedsIffLatestOpen(db: Db, pvzIdText: string, parseUuid: string -> Option<Uuid>, faults: set<Call>)
    requires Valid(db)
    requires parseUuid(pvzIdText).Some?
    requires ReceptionRepo.GetLast(db, parseUuid(pvzIdText).value, faults).Ok?
    ensures var pvzId := parseUuid(pvzIdText).value;
            var latest := ReceptionRepo.GetLast(db, pvzId, faults).value;
            CloseLast(db, pvzIdText, parseUuid, AsString(EmployeeRole), faults).response.code == StatusOK <==>
              && latest.status == InProgressStatus
              && IsOpenCall(latest.id) !in faults
              && CloseSelectCall(pvzId) !in faults && CloseUpdateCall(pvzId) !in faults
  {
    ReceptionRepo.IsOpenLatest(db, parseUuid(pvzIdText).value, faults);
  }

  // ---------------------------------------------------------------------
  // GET /pvz: query validation, date filter, nested listing, page window
  // ---------------------------------------------------------------------

  datatype PageQuery = PageQuery(startDate: string, endDate: string, page: string, limit: string)

  /** `page`: 1 when absent; otherwise a number of at least 1. */
  function ParsePage(text: string, atoi: string -> Option<int>): (r: Option<int>)
    ensures text == "" ==> r == Some(1)
    ensures text != "" ==> (r.Some? <==> atoi(text).Some? && atoi(text).value >= 1)
    ensures r.Some? ==> r.value >= 1 && (text != "" ==> r == atoi(text))
  {
    if text == "" then Some(1)
    else match atoi(text)
      case None => None
      case Some(n) => if n < 1 then None else Some(n)
  }

  /** `limit`: 10 when absent; otherwise a number between 1 and 30. */
  function ParseLimit(text: string, atoi: string -> Option<int>): (r: Option<int>)
    ensures text == "" ==> r == Some(10)
    ensures text != "" ==> (r.Some? <==> atoi(text).Some? && 1 <= atoi(text).value <= 30)
    ensures r.Some? ==> 1 <= r.value <= 30 && (text != "" ==> r == atoi(text))
  {
    if text == "" then Some(10)
    else match atoi(text)
      case None => None
      case Some(n) => if n < 1 || n > 30 then None else Some(n)
  }

  /** A date bound: the zero time when absent; None when it does not parse. */
  function ParseDate(text: string, parseTime: string -> Option<Time>): (r: Option<Time>)
    ensures text == "" ==> r == Some(ZeroTime)
    ensures text != "" ==> r == parseTime(text)
  {
    if text == "" then Some(ZeroTime) else parseTime(text)
  }

  /** A pickup point is listed unless a set start date is after its
      registration or a set end date is before it; both bounds are inclusive. */
  predicate InRange(p: Pvz, startDate: Time, endDate: Time) {
    !((startDate != ZeroTime && p.registrationDate < startDate) || (endDate != ZeroTime && p.registrationDate > endDate))
  }

  /** The pickup points in range, in input order. */
  function FilterByDate(pvzs: seq<Pvz>, startDate: Time, endDate: Time): (r: seq<Pvz>)
    ensures forall p :: p in r <==> p in pvzs && InRange(p, startDate, endDate)
    ensures |r| <= |pvzs|
  {
    if |pvzs| == 0 then []
    else
      (if InRange(pvzs[0], startDate, endDate) then [pvzs[0]] else []) + FilterByDate(pvzs[1..], startDate, endDate)
  }

  /** The filter keeps every in-range point as often as it occurs and drops
      every other point. */
  lemma {:induction false} FilterByDateCounts(pvzs: seq<Pvz>, startDate: Time, endDate: Time)
    ensures var r := FilterByDate(pvzs, startDate, endDate);
            forall p :: multiset(r)[p] == if InRange(p, startDate, endDate) then multiset(pvzs)[p] else 0
  {
    if |pvzs| > 0 {
      FilterByDateCounts(pvzs[1..], startDate, endDate);
      assert pvzs == [pvzs[0]] + pvzs[1..];
    }
  }

  /** The filter keeps input order: filtering a concatenation concatenates the
      filtered parts, so a point listed before another stays before it. */
  lemma {:induction false} FilterByDateAppend(a: seq<Pvz>, b: seq<Pvz>, startDate: Time, endDate: Time)
    ensures FilterByDate(a + b, startDate, endDate) == FilterByDate(a, startDate, endDate) + FilterByDate(b, startDate, endDate)
    decreases |a|
  {
    if |a| == 0 {
      assert a + b == b;
    } else {
      var head := if InRange(a[0], startDate, endDate) then [a[0]] else [];
      assert (a + b)[0] == a[0] && (a + b)[1..] == a[1..] + b;
      FilterByDateAppend(a[1..], b, startDate, endDate);
      assert FilterByDate(a + b, startDate, endDate) == head + FilterByDate(a[1..] + b, startDate, endDate);
      assert FilterByDate(a, startDate, endDate) == head + FilterByDate(a[1..], startDate, endDate);
    }
  }

  /** The listing of one pickup point succeeds: its receptions can be read,
      and so can the products of each of them. */
  predicate ListingOk(db: Db, p: Pvz, faults: set<Call>) {
    var rs := ReceptionUseCase.GetListForPVZ(db, p.id, faults);
    rs.Ok? && forall i :: 0 <= i < |rs.value| ==> ProductUseCase.GetReceptionList(db, rs.value[i].id, faults).Ok?
  }

  /** The inner loop: each reception with its products. */
  function CollectReceptions(db: Db, rs: seq<Reception>, faults: set<Call>): (r: Result<seq<ReceptionView>>)
    ensures r.Ok? <==> forall i :: 0 <= i < |rs| ==> ProductUseCase.GetReceptionList(db, rs[i].id, faults).Ok?
    ensures r.Ok? ==> |r.value| == |rs|
    ensures r.Ok? ==> forall i :: 0 <= i < |rs| ==>
      r.value[i] == ReceptionView(rs[i], ProductUseCase.GetReceptionList(db, rs[i].id, faults).value)
  {
    if |rs| == 0 then Ok([])
    else match ProductUseCase.GetReceptionList(db, rs[0].id, faults)
      case Err(e) => Err(e)
      case Ok(products) =>
        match CollectReceptions(db, rs[1..], faults)
        case Err(e) =>
          assert !ProductUseCase.GetReceptionList(db, rs[1..][0].id, faults).Ok? || exists i :: 0 <= i < |rs[1..]| && !ProductUseCase.GetReceptionList(db, rs[1..][i].id, faults).Ok?;
          Err(e)
        case Ok(views) => Ok([ReceptionView(rs[0], products)] + views)
  }

  /** The outcome of the outer loop: the views, or the message of the 500. */
  datatype Listing = Listed(views: seq<PvzView>) | ListFailed(message: string)

  /** The pickup points the views are about, in order. */
  function PvzsOf(vs: seq<PvzView>): (r: seq<Pvz>)
    ensures |r| == |vs|
    ensures forall i :: 0 <= i < |vs| ==> r[i] == vs[i].pvz
  {
    if |vs| == 0 then [] else [vs[0].pvz] + PvzsOf(vs[1..])
  }

  lemma PvzsOfSlice(vs: seq<PvzView>, lo: nat, hi: nat)
    requires lo <= hi <= |vs|
    ensures PvzsOf(vs[lo..hi]) == PvzsOf(vs)[lo..hi]
  {
    var a, b := PvzsOf(vs[lo..hi]), PvzsOf(vs)[lo..hi];
    assert |a| == |b|;
    forall i | 0 <= i < |a|
      ensures a[i] == b[i]
    {
      assert vs[lo..hi][i] == vs[lo + i];
    }
  }

  /** Every pickup point in range can be listed. */
  ghost predicate AllListable(db: Db, pvzs: seq<Pvz>, startDate: Time, endDate: Time, faults: set<Call>) {
    forall i :: 0 <= i < |pvzs| && InRange(pvzs[i], startDate, endDate) ==> ListingOk(db, pvzs[i], faults)
  }

  lemma AllListableCons(db: Db, pvzs: seq<Pvz>, startDate: Time, endDate: Time, faults: set<Call>)
    requires |pvzs| > 0
    ensures AllListable(db, pvzs, startDate, endDate, faults) <==>
      && (InRange(pvzs[0], startDate, endDate) ==> ListingOk(db, pvzs[0], faults))
      && AllListable(db, pvzs[1..], startDate, endDate, faults)
  {
    assert forall i :: 0 < i < |pvzs| ==> pvzs[i] == pvzs[1..][i - 1];
  }

  /** The outcome of listing one pickup point. */
  datatype OneListing = ListedOne(view: PvzView) | OneFailed(message: string)

  /** One pickup point with its receptions and their products, or the message
      of the first failure. */
  function ListOne(db: Db, p: Pvz, faults: set<Call>): (r: OneListing)
    ensures r.ListedOne? <==> ListingOk(db, p, faults)
    ensures r.ListedOne? ==> r.view.pvz == p
    ensures r.ListedOne? ==>
      && ReceptionUseCase.GetListForPVZ(db, p.id, faults).Ok?
      && CollectReceptions(db, ReceptionUseCase.GetListForPVZ(db, p.id, faults).value, faults).Ok?
      && r.view.receptions == CollectReceptions(db, ReceptionUseCase.GetListForPVZ(db, p.id, faults).value, faults).value
    ensures r.OneFailed? ==> r.message == GetReceptionsFailedMessage || r.message == GetProductsFailedMessage
  {
    match ReceptionUseCase.GetListForPVZ(db, p.id, faults)
    case Err(_) => OneFailed(GetReceptionsFailedMessage)
    case Ok(rs) =>
      match CollectReceptions(db, rs, faults)
      case Err(_) => OneFailed(GetProductsFailedMessage)
      case Ok(views) => ListedOne(PvzView(p, views))
  }

  /** The outer loop: every pickup point in range, in input order, with its
      receptions (newest first) and their products. */
  function CollectPvzs(db: Db, pvzs: seq<Pvz>, startDate: Time, endDate: Time, faults: set<Call>): (r: Listing)
    ensures r.ListFailed? <==> !AllListable(db, pvzs, startDate, endDate, faults)
    ensures r.ListFailed? ==> r.message == GetReceptionsFailedMessage || r.message == GetProductsFailedMessage
    ensures r.Listed? ==> PvzsOf(r.views) == FilterByDate(pvzs, startDate, endDate)
    ensures r.Listed? ==> forall i :: 0 <= i < |r.views| ==> ListOne(db, r.views[i].pvz, faults) == ListedOne(r.views[i])
  {
    if |pvzs| == 0 then Listed([])
    else
      var rest := CollectPvzs(db, pvzs[1..], startDate, endDate, faults);
      AllListableCons(db, pvzs, startDate, endDate, faults);
      if !InRange(pvzs[0], startDate, endDate) then rest
      else match ListOne(db, pvzs[0], faults)
        case OneFailed(message) => ListFailed(message)
        case ListedOne(view) =>
          if rest.ListFailed? then rest
          else
            var vs := [view] + rest.views;
            assert vs[1..] == rest.views;
            Listed(vs)
  }

  /** The page window `[start, end)` over `total` items, clamped to the list. */
  function Window(total: nat, page: int, limit: int): (w: (nat, nat))
    requires page >= 1 && limit >= 1
    ensures w.0 <= w.1 <= total
    ensures w.1 - w.0 <= limit
    ensures (page - 1) * limit <= total ==> w.0 == (page - 1) * limit
    ensures (page - 1) * limit >= total ==> w.0 == w.1 == total
    ensures w.1 == total || w.1 - w.0 == limit
  {
    var start := (page - 1) * limit;
    var end := start + limit;
    (if start > total then total else start, if end > total then total else end)
  }

  /** Consecutive pages tile the list: each page starts where the previous one ends. */
  lemma PagesTile(total: nat, page: int, limit: int)
    requires page >= 1 && limit >= 1
    ensures Window(total, page + 1, limit).0 == Window(total, page, limit).1
    ensures Window(total, 1, limit).0 == 0
  {
    assert (page + 1 - 1) * limit == (page - 1) * limit + limit;
  }

  /** Go's `int` on a 64-bit target: results wrap into [-2^63, 2^63). */
  const IntBound := 0x8000_0000_0000_0000

  function Wrap64(x: int): (r: int)
    ensures -IntBound <= r < IntBound
    ensures (x - r) % (2 * IntBound) == 0
  {
    (x + IntBound) % (2 * IntBound) - IntBound
  }

  /** The window exactly as the handler computes it, with wrapping products
      and sums; only a start above the total is clamped. */
  function WindowAsWritten(total: nat, page: int, limit: int): (w: (int, int))
    ensures w.0 <= total && w.1 <= total
  {
    var start := Wrap64((page - 1) * limit);
    var end := Wrap64(start + limit);
    (if start > total then total else start, if end > total then total else end)
  }

  /** A page number that `strconv.Atoi` accepts makes the start wrap below
      zero, which the clamp does not catch; slicing with it panics. */
  lemma HugePageGivesNegativeStart()
    ensures ParsePage("x", s => Some(0x4000_0000_0000_0001)) == Some(0x4000_0000_0000_0001)
    ensures WindowAsWritten(0, 0x4000_0000_0000_0001, 2).0 < 0
    ensures Window(0, 0x4000_0000_0000_0001, 2) == (0, 0)
  {
    assert (0x4000_0000_0000_0001 - 1) * 2 == IntBound;
    assert Wrap64(IntBound) == -IntBound;
  }

  /** The listing once the query is parsed: the page of the pickup points in
      range, or 500 when the store or one point's listing fails. */
  function ListPage(db: Db, page: int, limit: int, startDate: Time, endDate: Time, faults: set<Call>): (r: Response)
    requires page >= 1 && 1 <= limit <= 30
    ensures r.code == StatusOK || r.code == StatusInternalServerError
    ensures r.code == StatusOK <==> GetAllPvzsCall !in faults && AllListable(db, db.pvzs, startDate, endDate, faults)
    ensures GetAllPvzsCall in faults ==> r == Response(StatusInternalServerError, Message(GetPvzsFailedMessage))
    ensures GetAllPvzsCall !in faults && r.code != StatusOK ==>
      && CollectPvzs(db, db.pvzs, startDate, endDate, faults).ListFailed?
      && r == Response(StatusInternalServerError, Message(CollectPvzs(db, db.pvzs, startDate, endDate, faults).message))
    ensures r.code == StatusOK ==>
      var kept := FilterByDate(db.pvzs, startDate, endDate);
      var w := Window(|kept|, page, limit);
      && r.body.PvzListBody?
      && |r.body.items| <= limit
      && PvzsOf(r.body.items) == kept[w.0..w.1]
      && forall i :: 0 <= i < |r.body.items| ==> ListOne(db, r.body.items[i].pvz, faults) == ListedOne(r.body.items[i])
  {
    match GetAllPvzs(db, faults)
    case Err(_) => Response(StatusInternalServerError, Message(GetPvzsFailedMessage))
    case Ok(pvzs) =>
      match CollectPvzs(db, pvzs, startDate, endDate, faults)
      case ListFailed(message) => Response(StatusInternalServerError, Message(message))
      case Listed(views) =>
        var w := Window(|views|, page, limit);
        PvzsOfSlice(views, w.0, w.1);
        Response(StatusOK, PvzListBody(views[w.0..w.1]))
  }

  /** `GetAll` (GET /pvz). It never writes, so it returns only the response. */
  function GetAll(db: Db, q: PageQuery, atoi: string -> Option<int>, parseTime: string -> Option<Time>, faults: set<Call>): (r: Response)
    ensures ParsePage(q.page, atoi).None? ==> r == Response(StatusBadRequest, Message(InvalidPageMessage))
    ensures ParsePage(q.page, atoi).Some? && ParseLimit(q.limit, atoi).None?
            ==> r == Response(StatusBadRequest, Message(InvalidLimitMessage))
    ensures ParsePage(q.page, atoi).Some? && ParseLimit(q.limit, atoi).Some? && ParseDate(q.startDate, parseTime).None?
            ==> r == Response(StatusBadRequest, Message(InvalidStartDateMessage))
    ensures ParsePage(q.page, atoi).Some? && ParseLimit(q.limit, atoi).Some? && ParseDate(q.startDate, parseTime).Some?
            && ParseDate(q.endDate, parseTime).None?
            ==> r == Response(StatusBadRequest, Message(InvalidEndDateMessage))
    ensures r.code == StatusOK || r.code == StatusBadRequest || r.code == StatusInternalServerError
    ensures r.code == StatusOK ==>
      && ParsePage(q.page, atoi).Some? && ParseLimit(q.limit, atoi).Some?
      && ParseDate(q.startDate, parseTime).Some? && ParseDate(q.endDate, parseTime).Some?
      && GetAllPvzsCall !in faults
      && var kept := FilterByDate(db.pvzs, ParseDate(q.startDate, parseTime).value, ParseDate(q.endDate, parseTime).value);
         var w := Window(|kept|, ParsePage(q.page, atoi).value, ParseLimit(q.limit, atoi).value);
         && r.body.PvzListBody?
         && |r.body.items| <= ParseLimit(q.limit, atoi).value
         && PvzsOf(r.body.items) == kept[w.0..w.1]
    ensures ParsePage(q.page, atoi).Some? && ParseLimit(q.limit, atoi).Some?
            && ParseDate(q.startDate, parseTime).Some? && ParseDate(q.endDate, parseTime).Some? ==>
      r == ListPage(db, ParsePage(q.page, atoi).value, ParseLimit(q.limit, atoi).value,
                    ParseDate(q.startDate, parseTime).value, ParseDate(q.endDate, parseTime).value, faults)
  {
    match ParsePage(q.page, atoi)
    case None => Response(StatusBadRequest, Message(InvalidPageMessage))
    case Some(page) =>
      match ParseLimit(q.limit, atoi)
      case None => Response(StatusBadRequest, Message(InvalidLimitMessage))
      case Some(limit) =>
        match ParseDate(q.startDate, parseTime)
        case None => Response(StatusBadRequest, Message(InvalidStartDateMessage))
        case Some(startDate) =>
          match ParseDate(q.endDate, parseTime)
          case None => Response(StatusBadRequest, Message(InvalidEndDateMessage))
          case Some(endDate) => ListPage(db, page, limit, startDate, endDate, faults)
  }

  /** Because listing products is gated on the reception being open, on a
      well-formed database the whole listing fails with 500 as soon as one
      pickup point in range has a reception that is not `in_progress`. */
  lemma GetAllFailsOnClosedReception(db: Db, q: PageQuery, atoi: string -> Option<int>, parseTime: string -> Option<Time>,
                                     faults: set<Call>, k: nat, j: nat)
    requires Valid(db)
    requires ParsePage(q.page, atoi).Some? && ParseLimit(q.limit, atoi).Some?
    requires ParseDate(q.startDate, parseTime).Some? && ParseDate(q.endDate, parseTime).Some?
    requires GetAllPvzsCall !in faults
    requires k < |db.pvzs| && InRange(db.pvzs[k], ParseDate(q.startDate, parseTime).value, ParseDate(q.endDate, parseTime).value)
    requires j < |db.receptions| && db.receptions[j].pvzId == db.pvzs[k].id && db.receptions[j].status != InProgressStatus
    ensures GetAll(db, q, atoi, parseTime, faults).code == StatusInternalServerError
  {
    var p := db.pvzs[k];
    var x := db.receptions[j];
    var rs := ReceptionUseCase.GetListForPVZ(db, p.id, faults);
    if rs.Ok? {
      assert x in rs.value;
      var m :| 0 <= m < |rs.value| && rs.value[m] == x;
      forall i | 0 <= i < |db.receptions| && db.receptions[i].id == x.id
        ensures db.receptions[i].status != InProgressStatus
      {
        assert i == j;
      }
      assert !ProductUseCase.GetReceptionList(db, rs.value[m].id, faults).Ok?;
    }
    assert !ListingOk(db, p, faults);
  }
}

=== FILE: reception_handlers.dfy ===
/** The reception handlers of the routed handler tree (role read from the
    context as a plain string, dispatched by `switch`). */
module ReceptionHandlers {
  import opened Models
  import opened Dto
  import opened Store
  import opened Web
  import ReceptionRepo
  import ProductRepo
  import ReceptionUseCase
  import ProductUseCase

  const CannotStartMessage := "unable to start another reception"
  const FetchLastFailedMessage := "failed to fetch last reception"
  const StartFailedMessage := "failed to add product"
  const RemoveFailedMessage := "failed to remove product"

  /** The reception a start request creates: fresh id, current time, `in_progress`. */
  function NewReception(freshId: Uuid, now: Time, pvzId: Uuid): Reception {
    Reception(freshId, now, pvzId, InProgressStatus)
  }

  /** The store lets a start through: the latest reception could be read (or
      there is none), it is not `in_progress`, and the insert succeeds. */
  predicate MayStart(db: Db, pvzId: Uuid, freshId: Uuid, faults: set<Call>) {
    && GetLastCall(pvzId) !in faults
    && !ReceptionRepo.LatestIsOpen(db.receptions, pvzId)
    && CreateReceptionCall(freshId) !in faults
    && !HasReception(db.receptions, freshId)
  }

  /** The employee branch both `Create` handlers share: look up the latest
      reception and start a new one only if the latest is not `in_progress`. */
  function StartIfNoneOpen(db: Db, pvzId: Uuid, freshId: Uuid, now: Time, faults: set<Call>): (r: Reply)
    ensures r.response.code != StatusCreated ==> r.db == db
    ensures GetLastCall(pvzId) in faults ==> r == Refuse(db, StatusInternalServerError, FetchLastFailedMessage)
    ensures GetLastCall(pvzId) !in faults && ReceptionRepo.LatestIsOpen(db.receptions, pvzId)
            ==> r == Refuse(db, StatusBadRequest, CannotStartMessage)
    ensures GetLastCall(pvzId) !in faults && !ReceptionRepo.LatestIsOpen(db.receptions, pvzId) && !MayStart(db, pvzId, freshId, faults)
            ==> r == Refuse(db, StatusInternalServerError, StartFailedMessage)
    ensures r.response.code == StatusCreated <==> MayStart(db, pvzId, freshId, faults)
    ensures r.response.code == StatusCreated ==>
      && r.response.body == ReceptionBody(NewReception(freshId, now, pvzId))
      && r.db == db.(receptions := db.receptions + [NewReception(freshId, now, pvzId)])
    ensures Valid(db) ==> Valid(r.db)
  {
    var reception := NewReception(freshId, now, pvzId);
    var last := ReceptionUseCase.GetLastReception(db, pvzId, faults);
    if last.err.Some? && last.err.value != NoRows then Refuse(db, StatusInternalServerError, FetchLastFailedMessage)
    else if last.reception.status == InProgressStatus then Refuse(db, StatusBadRequest, CannotStartMessage)
    else match ReceptionUseCase.StartReception(db, reception, faults)
      case Err(_) => Refuse(db, StatusInternalServerError, StartFailedMessage)
      case Ok(next) => Reply(Response(StatusCreated, ReceptionBody(reception)), next)
  }

  /** `Create` (POST /receptions). */
  function Create(db: Db, req: Option<ReceptionRequest>, role: ContextRole, freshId: Uuid, now: Time, faults: set<Call>): (r: Reply)
    ensures r.response.code != StatusCreated ==> r.db == db
    ensures req.None? ==> r == Refuse(db, StatusBadRequest, InvalidBodyMessage)
    ensures req.Some? && !role.AsString? ==> r == Refuse(db, StatusInternalServerError, RoleFetchMessage)
    ensures req.Some? && role == AsString(ModeratorRole) ==> r == Refuse(db, StatusForbidden, ForbiddenMessage)
    ensures req.Some? && role.AsString? && !ValidRole(role.s) ==> r == Refuse(db, StatusInternalServerError, InvalidRoleMessage)
    ensures req.Some? && role == AsString(EmployeeRole) && GetLastCall(req.value.pvzId) in faults
            ==> r == Refuse(db, StatusInternalServerError, FetchLastFailedMessage)
    ensures req.Some? && role == AsString(EmployeeRole) && GetLastCall(req.value.pvzId) !in faults
            && ReceptionRepo.LatestIsOpen(db.receptions, req.value.pvzId)
            ==> r == Refuse(db, StatusBadRequest, CannotStartMessage)
    ensures req.Some? && role == AsString(EmployeeRole) && GetLastCall(req.value.pvzId) !in faults
            && !ReceptionRepo.LatestIsOpen(db.receptions, req.value.pvzId) && !MayStart(db, req.value.pvzId, freshId, faults)
            ==> r == Refuse(db, StatusInternalServerError, StartFailedMessage)
    ensures r.response.code == StatusCreated <==>
      req.Some? && role == AsString(EmployeeRole) && MayStart(db, req.value.pvzId, freshId, faults)
    ensures r.response.code == StatusCreated ==>
      && r.response.body == ReceptionBody(NewReception(freshId, now, req.value.pvzId))
      && r.db == db.(receptions := db.receptions + [NewReception(freshId, now, req.value.pvzId)])
    ensures Valid(db) ==> Valid(r.db)
  {
    if req.None? then Refuse(db, StatusBadRequest, InvalidBodyMessage)
    else if !role.AsString? then Refuse(db, StatusInternalServerError, RoleFetchMessage)
    else if role.s == EmployeeRole then StartIfNoneOpen(db, req.value.pvzId, freshId, now, faults)
    else if role.s == ModeratorRole then Refuse(db, StatusForbidden, ForbiddenMessage)
    else Refuse(db, StatusInternalServerError, InvalidRoleMessage)
  }

  /** The employee branch both `DeleteLast` handlers share. */
  function RemoveNewest(db: Db, receptionId: Uuid, faults: set<Call>): (r: Reply)
    ensures r.response.code != StatusOK ==> r.db == db && r.response == Response(StatusInternalServerError, Message(RemoveFailedMessage))
    ensures r.response.code == StatusOK <==> ProductUseCase.RemoveFromReception(db, receptionId, faults).Ok?
    ensures r.response.code == StatusOK ==>
      ReceptionRepo.OpenIn(db.receptions, receptionId) && ProductRepo.Newest(db.products, receptionId).Some?
    ensures r.response.code == StatusOK ==> var k := ProductRepo.Newest(db.products, receptionId).value;
      && r.response.body == NullBody
      && r.db.products == db.products[..k] + db.products[k + 1..]
      && r.db.receptions == db.receptions && r.db.pvzs == db.pvzs
    ensures Valid(db) ==> Valid(r.db)
  {
    match ProductUseCase.RemoveFromReception(db, receptionId, faults)
    case Err(_) => Refuse(db, StatusInternalServerError, RemoveFailedMessage)
    case Ok(next) =>
      var k := ProductRepo.Newest(db.products, receptionId).value;
      assert next.products == db.products[..k] + db.products[k + 1..] by {
        assert next.products == next.products[..k] + next.products[k..];
      }
      Reply(Response(StatusOK, NullBody), next)
  }

  /** `DeleteLast` (POST /pvz/{pvzId}/delete_last_product). */
  function DeleteLast(db: Db, pvzIdText: string, parseUuid: string -> Option<Uuid>, role: ContextRole, faults: set<Call>): (r: Reply)
    ensures r.response.code != StatusOK ==> r.db == db
    ensures parseUuid(pvzIdText).None? ==> r == Refuse(db, StatusBadRequest, InvalidPvzIdMessage)
    ensures parseUuid(pvzIdText).Some? && !ReceptionRepo.GetLast(db, parseUuid(pvzIdText).value, faults).Ok?
            ==> r == Refuse(db, StatusInternalServerError, GetLastFailedMessage)
    ensures parseUuid(pvzIdText).Some? && ReceptionRepo.GetLast(db, parseUuid(pvzIdText).value, faults).Ok? ==>
      && (!role.AsString? ==> r == Refuse(db, StatusInternalServerError, RoleFetchMessage))
      && (role == AsString(ModeratorRole) ==> r == Refuse(db, StatusForbidden, ForbiddenMessage))
      && (role.AsString? && !ValidRole(role.s) ==> r == Refuse(db, StatusInternalServerError, InvalidRoleMessage))
      && (role == AsString(EmployeeRole) && r.response.code != StatusOK
          ==> r == Refuse(db, StatusInternalServerError, RemoveFailedMessage))
    ensures r.response.code == StatusOK <==>
      && parseUuid(pvzIdText).Some?
      && ReceptionRepo.GetLast(db, parseUuid(pvzIdText).value, faults).Ok?
      && role == AsString(EmployeeRole)
      && ProductUseCase.RemoveFromReception(db, ReceptionRepo.GetLast(db, parseUuid(pvzIdText).value, faults).value.id, faults).Ok?
    ensures r.response.code == StatusOK ==>
      var pvzId := parseUuid(pvzIdText).value;
      var latest := db.receptions[ReceptionRepo.Latest(db.receptions, pvzId).value];
      && role == AsString(EmployeeRole)
      && r.response.body == NullBody
      && ReceptionRepo.OpenIn(db.receptions, latest.id)
      && ProductRepo.Newest(db.products, latest.id).Some?
      && var k := ProductRepo.Newest(db.products, latest.id).value;
         && db.products[k].receptionId == latest.id
         && r.db.products == db.products[..k] + db.products[k + 1..]
         && r.db.receptions == db.receptions
    ensures Valid(db) ==> Valid(r.db)
  {
    match parseUuid(pvzIdText)
    case None => Refuse(db, StatusBadRequest, InvalidPvzIdMessage)
    case Some(pvzId) =>
      var last := ReceptionUseCase.GetLastReception(db, pvzId, faults);
      if last.err.Some? then Refuse(db, StatusInternalServerError, GetLastFailedMessage)
      else if !role.AsString? then Refuse(db, StatusInternalServerError, RoleFetchMessage)
      else if role.s == EmployeeRole then RemoveNewest(db, last.reception.id, faults)
      else if role.s == ModeratorRole then Refuse(db, StatusForbidden, ForbiddenMessage)
      else Refuse(db, StatusInternalServerError, InvalidRoleMessage)
  }

  /** On a well-formed database an employee's delete succeeds exactly when the
      latest reception is `in_progress`, has a product, and no query fails. */
  lemma DeleteLastSucceedsIffOpenWithProduct(db: Db, pvzIdText: string, parseUuid: string -> Option<Uuid>, faults: set<Call>)
    requires Valid(db)
    requires parseUuid(pvzIdText).Some?
    requires ReceptionRepo.GetLast(db, parseUuid(pvzIdText).value, faults).Ok?
    ensures var latest := ReceptionRepo.GetLast(db, parseUuid(pvzIdText).value, faults).value;
            DeleteLast(db, pvzIdText, parseUuid, AsString(EmployeeRole), faults).response.code == StatusOK <==>
              && latest.status == InProgressStatus
              && IsOpenCall(latest.id) !in faults
              && ProductRepo.Newest(db.products, latest.id).Some?
              && DeleteBeginCall(latest.id) !in faults && DeleteSelectCall(latest.id) !in faults
              && DeleteExecCall(latest.id) !in faults && DeleteCommitCall(latest.id) !in faults
  {
    ReceptionRepo.IsOpenLatest(db, parseUuid(pvzIdText).value, faults);
  }

  /** On a well-formed database an employee's delete fails with 500, removing
      nothing, when the latest reception is closed or has no products. */
  lemma DeleteLastRefusesClosedOrEmpty(db: Db, pvzIdText: string, parseUuid: string -> Option<Uuid>, faults: set<Call>)
    requires Valid(db)
    requires parseUuid(pvzIdText).Some?
    requires ReceptionRepo.GetLast(db, parseUuid(pvzIdText).value, faults).Ok?
    requires var latest := ReceptionRepo.GetLast(db, parseUuid(pvzIdText).value, faults).value;
             latest.status != InProgressStatus || ProductRepo.Newest(db.products, latest.id).None?
    ensures DeleteLast(db, pvzIdText, parseUuid, AsString(EmployeeRole), faults)
            == Refuse(db, StatusInternalServerError, RemoveFailedMessage)
  {
    var pvzId := parseUuid(pvzIdText).value;
    var i := ReceptionRepo.Latest(db.receptions, pvzId).value;
    var latest := db.receptions[i];
    if latest.status != InProgressStatus {
      forall j | 0 <= j < |db.receptions| && db.receptions[j].id == latest.id
        ensures db.receptions[j].status != InProgressStatus
      {
        assert j == i;
      }
    }
  }
}

=== FILE: reception_repo.dfy ===
/** The reception repository (`ReceptionRepo` over the `receptions` table). */
module ReceptionRepo {
  import opened Models
  import opened Dto
  import opened Store

  /** Index of the latest reception of a pickup point: the row with the
      greatest `date_time` (on a tie, the row inserted last). */
  function Latest(rs: seq<Reception>, pvzId: Uuid): (r: Option<nat>)
    ensures r.Some? ==> r.value < |rs| && rs[r.value].pvzId == pvzId
    ensures r.Some? ==> forall j :: 0 <= j < |rs| && rs[j].pvzId == pvzId ==> rs[j].dateTime <= rs[r.value].dateTime
    ensures r.None? <==> forall j :: 0 <= j < |rs| ==> rs[j].pvzId != pvzId
  {
    var s := ReceptionStamps(rs);
    var r := NewestOf(s, pvzId);
    assert r.Some? ==> s[r.value] == Stamp(rs[r.value].pvzId, rs[r.value].dateTime);
    r
  }

  /** The latest reception of the pickup point exists and is `in_progress`. */
  predicate LatestIsOpen(rs: seq<Reception>, pvzId: Uuid) {
    var k := Latest(rs, pvzId);
    k.Some? && rs[k.value].status == InProgressStatus
  }

  /** Some row with this id has status exactly `in_progress`. */
  ghost predicate OpenIn(rs: seq<Reception>, id: Uuid) {
    exists i :: 0 <= i < |rs| && rs[i].id == id && rs[i].status == InProgressStatus
  }

  /** First row carrying the id: what `WHERE id = ? LIMIT 1` returns. */
  function FindById(rs: seq<Reception>, id: Uuid): (r: Option<nat>)
    ensures r.Some? ==> r.value < |rs| && rs[r.value].id == id
    ensures r.Some? ==> forall j :: 0 <= j < r.value ==> rs[j].id != id
    ensures r.None? <==> !HasReception(rs, id)
  {
    if |rs| == 0 then None
    else if rs[0].id == id then Some(0)
    else match FindById(rs[1..], id)
      case None => None
      case Some(k) => Some(k + 1)
  }

  /** `Create`: inserts the reception as given. */
  function Create(db: Db, reception: Reception, faults: set<Call>): (r: Result<Db>)
    ensures r.Ok? <==> CreateReceptionCall(reception.id) !in faults && !HasReception(db.receptions, reception.id)
    ensures r.Err? ==> r.error == DbFailure
    ensures r.Ok? ==> |r.value.receptions| == |db.receptions| + 1
    ensures r.Ok? ==> r.value.receptions[..|db.receptions|] == db.receptions
    ensures r.Ok? ==> r.value.receptions[|db.receptions|] == reception
    ensures r.Ok? ==> r.value.pvzs == db.pvzs && r.value.products == db.products && r.value.clock == db.clock
    ensures r.Ok? && Valid(db) ==> Valid(r.value)
  {
    if CreateReceptionCall(reception.id) in faults || HasReception(db.receptions, reception.id) then Err(DbFailure)
    else Ok(db.(receptions := db.receptions + [reception]))
  }

  /** `IsOpen`: never an error; a missing row or a failed query reads as false. */
  function IsOpen(db: Db, id: Uuid, faults: set<Call>): (open: bool)
    ensures open ==> IsOpenCall(id) !in faults && OpenIn(db.receptions, id)
    ensures !HasReception(db.receptions, id) ==> !open
    ensures UniqueReceptionIds(db.receptions) ==> (open <==> IsOpenCall(id) !in faults && OpenIn(db.receptions, id))
  {
    if IsOpenCall(id) in faults then false
    else match FindById(db.receptions, id)
      case None => false
      case Some(i) => db.receptions[i].status == InProgressStatus
  }

  /** With unique ids, the latest reception of a pickup point reads as open
      exactly when it is `in_progress` and the query does not fail. */
  lemma IsOpenLatest(db: Db, pvzId: Uuid, faults: set<Call>)
    requires UniqueReceptionIds(db.receptions)
    requires Latest(db.receptions, pvzId).Some?
    ensures var x := db.receptions[Latest(db.receptions, pvzId).value];
            IsOpen(db, x.id, faults) <==> IsOpenCall(x.id) !in faults && x.status == InProgressStatus
  {
    var rs := db.receptions;
    var i := Latest(rs, pvzId).value;
    if OpenIn(rs, rs[i].id) {
      var j :| 0 <= j < |rs| && rs[j].id == rs[i].id && rs[j].status == InProgressStatus;
      assert j == i;
    }
  }

  /** `GetLast`: the latest reception of the pickup point. */
  function GetLast(db: Db, pvzId: Uuid, faults: set<Call>): (r: Result<Reception>)
    ensures GetLastCall(pvzId) in faults ==> r == Err(DbFailure)
    ensures GetLastCall(pvzId) !in faults ==> (r == Err(NoRows) <==> forall j :: 0 <= j < |db.receptions| ==> db.receptions[j].pvzId != pvzId)
    ensures r.Err? ==> r.error == DbFailure || r.error == NoRows
    ensures r.Ok? ==> r.value in db.receptions && r.value.pvzId == pvzId
    ensures r.Ok? ==> forall j :: 0 <= j < |db.receptions| && db.receptions[j].pvzId == pvzId ==> db.receptions[j].dateTime <= r.value.dateTime
    ensures r.Ok? <==> GetLastCall(pvzId) !in faults && Latest(db.receptions, pvzId).Some?
    ensures r.Ok? ==> r.value == db.receptions[Latest(db.receptions, pvzId).value]
  {
    if GetLastCall(pvzId) in faults then Err(DbFailure)
    else match Latest(db.receptions, pvzId)
      case None => Err(NoRows)
      case Some(i) => Ok(db.receptions[i])
  }

  /** The receptions of one pickup point, in table order. */
  function OfPvz(rs: seq<Reception>, pvzId: Uuid): (r: seq<Reception>)
    ensures forall x :: x in r <==> x in rs && x.pvzId == pvzId
    ensures multiset(r) <= multiset(rs)
  {
    if |rs| == 0 then []
    else
      assert rs == [rs[0]] + rs[1..];
      (if rs[0].pvzId == pvzId then [rs[0]] else []) + OfPvz(rs[1..], pvzId)
  }

  ghost predicate NewestFirst(s: seq<Reception>) {
    forall i, j :: 0 <= i < j < |s| ==> s[i].dateTime >= s[j].dateTime
  }

  function InsertNewestFirst(x: Reception, s: seq<Reception>): (r: seq<Reception>)
    requires NewestFirst(s)
    ensures multiset(r) == multiset(s) + multiset{x}
    ensures forall y :: y in r ==> y == x || y in s
    ensures NewestFirst(r)
  {
    if |s| == 0 then [x]
    else if x.dateTime >= s[0].dateTime then
      HeadBoundsTail(s);
      PrependNewest(x, s);
      [x] + s
    else
      var rest := InsertNewestFirst(x, s[1..]);
      assert s == [s[0]] + s[1..];
      HeadBoundsTail(s);
      assert forall y :: y in rest ==> s[0].dateTime >= y.dateTime;
      PrependNewest(s[0], rest);
      [s[0]] + rest
  }

  lemma HeadBoundsTail(s: seq<Reception>)
    requires NewestFirst(s) && |s| > 0
    ensures forall y :: y in s ==> s[0].dateTime >= y.dateTime
  {
    forall y | y in s
      ensures s[0].dateTime >= y.dateTime
    {
      var k :| 0 <= k < |s| && s[k] == y;
      if k > 0 {
        assert s[0].dateTime >= s[k].dateTime;
      }
    }
  }

  lemma PrependNewest(x: Reception, s: seq<Reception>)
    requires NewestFirst(s)
    requires forall y :: y in s ==> x.dateTime >= y.dateTime
    ensures NewestFirst([x] + s)
  {
    var r := [x] + s;
    forall i, j | 0 <= i < j < |r|
      ensures r[i].dateTime >= r[j].dateTime
    {
      if i == 0 {
        assert r[j] == s[j - 1] && s[j - 1] in s;
      } else {
        assert r[i] == s[i - 1] && r[j] == s[j - 1];
      }
    }
  }

  /** `ORDER BY date_time DESC` (by insertion; ties are left in an order the query does not fix). */
  function SortNewestFirst(s: seq<Reception>): (r: seq<Reception>)
    ensures multiset(r) == multiset(s)
    ensures NewestFirst(r)
  {
    if |s| == 0 then []
    else
      assert s == [s[0]] + s[1..];
      InsertNewestFirst(s[0], SortNewestFirst(s[1..]))
  }

  /** `GetAllForPVZ`: every reception of the pickup point, newest first. */
  function GetAllForPVZ(db: Db, pvzId: Uuid, faults: set<Call>): (r: Result<seq<Reception>>)
    ensures r.Ok? <==> GetAllForPvzCall(pvzId) !in faults
    ensures r.Err? ==> r.error == DbFailure
    ensures r.Ok? ==> multiset(r.value) == multiset(OfPvz(db.receptions, pvzId))
    ensures r.Ok? ==> forall x :: x in r.value <==> x in db.receptions && x.pvzId == pvzId
    ensures r.Ok? ==> NewestFirst(r.value)
  {
    if GetAllForPvzCall(pvzId) in faults then Err(DbFailure)
    else
      var sorted := SortNewestFirst(OfPvz(db.receptions, pvzId));
      assert forall x :: x in sorted <==> x in multiset(sorted);
      Ok(sorted)
  }

  /** The head of the newest-first list is as late as the reception `GetLast` returns. */
  lemma GetAllHeadIsLatest(db: Db, pvzId: Uuid, faults: set<Call>)
    requires GetAllForPvzCall(pvzId) !in faults && GetLastCall(pvzId) !in faults
    ensures var all := GetAllForPVZ(db, pvzId, faults).value;
            var last := GetLast(db, pvzId, faults);
            && (|all| == 0 <==> last == Err(NoRows))
            && (|all| > 0 ==> last.Ok? && all[0].dateTime == last.value.dateTime)
  {
    var rs := db.receptions;
    var all := GetAllForPVZ(db, pvzId, faults).value;
    var last := GetLast(db, pvzId, faults);
    assert forall x :: x in all <==> x in rs && x.pvzId == pvzId;
    if |all| > 0 {
      assert all[0] in rs && all[0].pvzId == pvzId;
      var k :| 0 <= k < |rs| && rs[k] == all[0];
      assert last.Ok?;
      assert last.value in all;
      HeadBoundsTail(all);
    }
  }

  /** `CloseLast`: select the latest reception of the pickup point, then set its
      status to `close`, whatever it was. */
  function CloseLast(db: Db, pvzId: Uuid, faults: set<Call>): (r: Result<Db>)
    ensures CloseSelectCall(pvzId) in faults ==> r == Err(DbFailure)
    ensures CloseSelectCall(pvzId) !in faults && (forall j :: 0 <= j < |db.receptions| ==> db.receptions[j].pvzId != pvzId) ==> r == Err(NoRows)
    ensures r.Ok? <==> CloseSelectCall(pvzId) !in faults && CloseUpdateCall(pvzId) !in faults && Latest(db.receptions, pvzId).Some?
    ensures r.Ok? ==> var i := Latest(db.receptions, pvzId).value;
      && |r.value.receptions| == |db.receptions|
      && r.value.receptions[i] == db.receptions[i].(status := CloseStatus)
      && forall j :: 0 <= j < |db.receptions| && j != i ==> r.value.receptions[j] == db.receptions[j]
    ensures r.Ok? ==> ReceptionStamps(r.value.receptions) == ReceptionStamps(db.receptions)
    ensures r.Ok? ==> r.value.pvzs == db.pvzs && r.value.products == db.products && r.value.clock == db.clock
    ensures r.Ok? && Valid(db) ==> Valid(r.value)
  {
    if CloseSelectCall(pvzId) in faults then Err(DbFailure)
    else match Latest(db.receptions, pvzId)
      case None => Err(NoRows)
      case Some(i) =>
        if CloseUpdateCall(pvzId) in faults then Err(DbFailure)
        else
          var rs := db.receptions[i := db.receptions[i].(status := CloseStatus)];
          assert ReceptionStamps(rs) == ReceptionStamps(db.receptions);
          Ok(db.(receptions := rs))
  }
}

=== FILE: reception_usecase.dfy ===
/** `ReceptionUseCase`: the reception lifecycle as the use-case layer sees it. */
module ReceptionUseCase {
  import opened Models
  import opened Dto
  import opened Store
  import ReceptionRepo

  const AlreadyClosedMessage := "reception is already closed"

  /** `StartReception`: hands the reception to the repository as it is; it does
      not look for an open reception itself. */
  function StartReception(db: Db, reception: Reception, faults: set<Call>): (r: Result<Db>)
    ensures r.Err? <==> CreateReceptionCall(reception.id) in faults || HasReception(db.receptions, reception.id)
    ensures r.Err? ==> r.error == DbFailure
    ensures r.Ok? ==> r.value == db.(receptions := db.receptions + [reception])
  {
    ReceptionRepo.Create(db, reception, faults)
  }

  /** `CloseReception`: refuses unless the given reception is open, then closes
      the latest reception of the given pickup point. */
  function CloseReception(db: Db, receptionId: Uuid, pvzId: Uuid, faults: set<Call>): (r: Result<Db>)
    ensures !ReceptionRepo.IsOpen(db, receptionId, faults) ==> r == Err(Conflict(AlreadyClosedMessage))
    ensures ReceptionRepo.IsOpen(db, receptionId, faults) ==> r == ReceptionRepo.CloseLast(db, pvzId, faults)
    ensures r.Ok? ==> var i := ReceptionRepo.Latest(db.receptions, pvzId).value;
      && r.value.receptions == db.receptions[i := db.receptions[i].(status := CloseStatus)]
      && r.value.pvzs == db.pvzs && r.value.products == db.products && r.value.clock == db.clock
    ensures r.Ok? && Valid(db) ==> Valid(r.value)
  {
    if !ReceptionRepo.IsOpen(db, receptionId, faults) then Err(Conflict(AlreadyClosedMessage))
    else
      var c := ReceptionRepo.CloseLast(db, pvzId, faults);
      assert c.Ok? ==> c.value.receptions == db.receptions[ReceptionRepo.Latest(db.receptions, pvzId).value := c.value.receptions[ReceptionRepo.Latest(db.receptions, pvzId).value]];
      c
  }

  /** Go's `(models.Reception, error)` pair. */
  datatype LastReception = LastReception(reception: Reception, err: Option<Error>)

  /** `GetLastReception`: the latest reception, or the zero reception with the error. */
  function GetLastReception(db: Db, pvzId: Uuid, faults: set<Call>): (r: LastReception)
    ensures r.err.Some? ==> r.reception == ZeroReception
    ensures GetLastCall(pvzId) in faults ==> r.err == Some(DbFailure)
    ensures r.err.Some? ==> Err(r.err.value) == ReceptionRepo.GetLast(db, pvzId, faults)
    ensures r.err.Some? <==> GetLastCall(pvzId) in faults || ReceptionRepo.Latest(db.receptions, pvzId).None?
    ensures r.err == Some(NoRows) <==> GetLastCall(pvzId) !in faults && ReceptionRepo.Latest(db.receptions, pvzId).None?
    ensures r.err.None? ==> r.reception == db.receptions[ReceptionRepo.Latest(db.receptions, pvzId).value]
  {
    match ReceptionRepo.GetLast(db, pvzId, faults)
    case Err(e) => LastReception(ZeroReception, Some(e))
    case Ok(rec) => LastReception(rec, None)
  }

  /** `GetListForPVZ`: the repository's list unchanged, or nothing and the error. */
  function GetListForPVZ(db: Db, pvzId: Uuid, faults: set<Call>): (r: Result<seq<Reception>>)
    ensures r.Ok? <==> GetAllForPvzCall(pvzId) !in faults
    ensures r.Ok? ==> multiset(r.value) == multiset(ReceptionRepo.OfPvz(db.receptions, pvzId))
    ensures r.Ok? ==> ReceptionRepo.NewestFirst(r.value)
  {
    ReceptionRepo.GetAllForPVZ(db, pvzId, faults)
  }

  /** `CloseReception` with an open id that is not the pickup point's latest
      reception closes the latest one and leaves the given one open. */
  lemma CloseReceptionIgnoresGivenId(db: Db, receptionId: Uuid, pvzId: Uuid, faults: set<Call>)
    requires Valid(db)
    requires ReceptionRepo.IsOpen(db, receptionId, faults)
    requires CloseReception(db, receptionId, pvzId, faults).Ok?
    requires db.receptions[ReceptionRepo.Latest(db.receptions, pvzId).value].id != receptionId
    ensures var after := CloseReception(db, receptionId, pvzId, faults).value;
            && ReceptionRepo.OpenIn(after.receptions, receptionId)
            && after.receptions[ReceptionRepo.Latest(db.receptions, pvzId).value].status == CloseStatus
  {
    var rs := db.receptions;
    var k := ReceptionRepo.Latest(rs, pvzId).value;
    var after := CloseReception(db, receptionId, pvzId, faults).value;
    var i :| 0 <= i < |rs| && rs[i].id == receptionId && rs[i].status == InProgressStatus;
    assert i != k;
    assert after.receptions[i] == rs[i];
  }

  /** Closing the pickup point's latest reception by its own id succeeds at most
      once: a second call reports it already closed. */
  lemma CloseReceptionTwiceFails(db: Db, receptionId: Uuid, pvzId: Uuid, faults: set<Call>)
    requires Valid(db)
    requires ReceptionRepo.Latest(db.receptions, pvzId).Some?
    requires db.receptions[ReceptionRepo.Latest(db.receptions, pvzId).value].id == receptionId
    requires CloseReception(db, receptionId, pvzId, faults).Ok?
    ensures CloseReception(CloseReception(db, receptionId, pvzId, faults).value, receptionId, pvzId, faults)
            == Err(Conflict(AlreadyClosedMessage))
  {
    var rs := db.receptions;
    var k := ReceptionRepo.Latest(rs, pvzId).value;
    var after := CloseReception(db, receptionId, pvzId, faults).value;
    ConstantsDistinct();
    forall j | 0 <= j < |after.receptions| && after.receptions[j].id == receptionId
      ensures after.receptions[j].status != InProgressStatus
    {
      assert j == k;
    }
  }

  /** `StartReception` alone does not keep one reception open per pickup point:
      starting while the latest reception is open leaves two open ones. */
  lemma StartReceptionAllowsSecondOpen(db: Db, reception: Reception, faults: set<Call>)
    requires ReceptionRepo.LatestIsOpen(db.receptions, reception.pvzId)
    requires reception.status == InProgressStatus
    requires StartReception(db, reception, faults).Ok?
    ensures var rs := StartReception(db, reception, faults).value.receptions;
            exists i, j :: 0 <= i < j < |rs| && rs[i].pvzId == rs[j].pvzId
                           && rs[i].status == InProgressStatus && rs[j].status == InProgressStatus
  {
    var rs := StartReception(db, reception, faults).value.receptions;
    var k := ReceptionRepo.Latest(db.receptions, reception.pvzId).value;
    assert rs[k] == db.receptions[k] && rs[|db.receptions|] == reception;
  }
}

=== FILE: store.dfy ===
/** The abstract database the repositories work on: three tables in insertion
    order, the database clock that stamps new product rows, and the set of
    statements the environment makes fail. */
module Store {
  import opened Models

  /** One store statement, named by its kind and argument. A store operation
      fails when its statement is in the `faults` set it is given. */
  datatype Call =
    | CreateReceptionCall(receptionId: Uuid)
    | CloseSelectCall(pvzId: Uuid)
    | CloseUpdateCall(pvzId: Uuid)
    | IsOpenCall(receptionId: Uuid)
    | GetLastCall(pvzId: Uuid)
    | GetAllForPvzCall(pvzId: Uuid)
    | AddOneCall(productId: Uuid)
    | DeleteBeginCall(receptionId: Uuid)
    | DeleteSelectCall(receptionId: Uuid)
    | DeleteExecCall(receptionId: Uuid)
    | DeleteCommitCall(receptionId: Uuid)
    | GetForReceptionCall(receptionId: Uuid)
    | CreatePvzCall(pvzId: Uuid)
    | GetAllPvzsCall

  datatype Db = Db(pvzs: seq<Pvz>, receptions: seq<Reception>, products: seq<Product>, clock: Time)

  /** The owner and timestamp of a row: what `WHERE owner = ? ORDER BY date_time DESC LIMIT 1` looks at. */
  datatype Stamp = Stamp(owner: Uuid, time: Time)

  /** Index of the row of `owner` with the greatest time; among rows with equal
      greatest time, the one inserted last. None when `owner` has no row. */
  function NewestOf(s: seq<Stamp>, owner: Uuid): (r: Option<nat>)
    ensures r.Some? ==> r.value < |s| && s[r.value].owner == owner
    ensures r.Some? ==> forall j :: 0 <= j < |s| && s[j].owner == owner ==> s[j].time <= s[r.value].time
    ensures r.Some? ==> forall j :: r.value < j < |s| && s[j].owner == owner ==> s[j].time < s[r.value].time
    ensures r.None? <==> forall j :: 0 <= j < |s| ==> s[j].owner != owner
  {
    if |s| == 0 then None
    else
      var k := NewestOf(s[..|s| - 1], owner);
      var last := s[|s| - 1];
      if last.owner == owner && (k.None? || s[k.value].time <= last.time) then Some(|s| - 1)
      else k
  }

  /** Row `i` is the newest row of `owner`. */
  ghost predicate IsNewest(s: seq<Stamp>, owner: Uuid, i: int) {
    && 0 <= i < |s|
    && s[i].owner == owner
    && (forall j :: 0 <= j < |s| && s[j].owner == owner ==> s[j].time <= s[i].time)
    && (forall j :: i < j < |s| && s[j].owner == owner ==> s[j].time < s[i].time)
  }

  /** The newest row is unique: any row meeting the definition is the one `NewestOf` picks. */
  lemma NewestIsUnique(s: seq<Stamp>, owner: Uuid, i: int)
    requires IsNewest(s, owner, i)
    ensures NewestOf(s, owner) == Some(i)
  {
  }

  /** Appending a row of another owner does not change who is newest. */
  lemma NewestAppendOther(s: seq<Stamp>, x: Stamp, owner: Uuid)
    requires x.owner != owner
    ensures NewestOf(s + [x], owner) == NewestOf(s, owner)
  {
    assert (s + [x])[..|s|] == s;
  }

  /** Appending a row of `owner` at least as late as every row of `owner` makes it the newest. */
  lemma NewestAppendLatest(s: seq<Stamp>, x: Stamp)
    requires forall j :: 0 <= j < |s| && s[j].owner == x.owner ==> s[j].time <= x.time
    ensures NewestOf(s + [x], x.owner) == Some(|s|)
  {
    assert (s + [x])[..|s|] == s;
  }

  function ReceptionStamps(rs: seq<Reception>): (s: seq<Stamp>)
    ensures |s| == |rs|
    ensures forall i :: 0 <= i < |rs| ==> s[i] == Stamp(rs[i].pvzId, rs[i].dateTime)
  {
    seq(|rs|, i requires 0 <= i < |rs| => Stamp(rs[i].pvzId, rs[i].dateTime))
  }

  function ProductStamps(ps: seq<Product>): (s: seq<Stamp>)
    ensures |s| == |ps|
    ensures forall i :: 0 <= i < |ps| ==> s[i] == Stamp(ps[i].receptionId, ps[i].dateTime)
  {
    seq(|ps|, i requires 0 <= i < |ps| => Stamp(ps[i].receptionId, ps[i].dateTime))
  }

  predicate HasReception(rs: seq<Reception>, id: Uuid) {
    exists i :: 0 <= i < |rs| && rs[i].id == id
  }

  predicate HasProduct(ps: seq<Product>, id: Uuid) {
    exists i :: 0 <= i < |ps| && ps[i].id == id
  }

  ghost predicate UniqueReceptionIds(rs: seq<Reception>) {
    forall i, j :: 0 <= i < j < |rs| ==> rs[i].id != rs[j].id
  }

  ghost predicate UniqueProductIds(ps: seq<Product>) {
    forall i, j :: 0 <= i < j < |ps| ==> ps[i].id != ps[j].id
  }

  /** Product rows carry strictly increasing database timestamps, all before the clock. */
  ghost predicate Chronological(ps: seq<Product>, clock: Time) {
    && (forall i, j :: 0 <= i < j < |ps| ==> ps[i].dateTime < ps[j].dateTime)
    && (forall i :: 0 <= i < |ps| ==> ps[i].dateTime < clock)
  }

  /** The well-formedness every reachable database keeps: primary keys are
      unique and the product table is in database-clock order. */
  ghost predicate Valid(db: Db) {
    && UniqueReceptionIds(db.receptions)
    && UniqueProductIds(db.products)
    && Chronological(db.products, db.clock)
  }

  /** The pickup-point repository, kept abstract: an insert that fails on a
      fault or a taken id, and a read of the whole table. */
  function CreatePvz(db: Db, pvz: Pvz, faults: set<Call>): (r: Result<Db>)
    ensures r.Ok? <==> CreatePvzCall(pvz.id) !in faults && (forall i :: 0 <= i < |db.pvzs| ==> db.pvzs[i].id != pvz.id)
    ensures r.Ok? ==> |r.value.pvzs| == |db.pvzs| + 1 && r.value.pvzs[..|db.pvzs|] == db.pvzs && r.value.pvzs[|db.pvzs|..] == [pvz]
    ensures r.Ok? ==> r.value.receptions == db.receptions && r.value.products == db.products && r.value.clock == db.clock
    ensures r.Err? ==> r.error == DbFailure
  {
    if CreatePvzCall(pvz.id) in faults || exists i :: 0 <= i < |db.pvzs| && db.pvzs[i].id == pvz.id then Err(DbFailure)
    else Ok(db.(pvzs := db.pvzs + [pvz]))
  }

  function GetAllPvzs(db: Db, faults: set<Call>): (r: Result<seq<Pvz>>)
    ensures r.Ok? <==> GetAllPvzsCall !in faults
    ensures r.Ok? ==> r.value == db.pvzs
  {
    if GetAllPvzsCall in faults then Err(DbFailure) else Ok(db.pvzs)
  }
}

=== FILE: web.dfy ===
/** What the HTTP handlers consume and produce: the role value found in the
    request context, the bound request bodies, and the JSON replies. */
module Web {
  import opened Models
  import opened Store

  const StatusOK := 200
  const StatusCreated := 201
  const StatusBadRequest := 400
  const StatusUnauthorized := 401
  const StatusForbidden := 403
  const StatusInternalServerError := 500

  const InvalidBodyMessage := "invalid request body"
  const RoleFetchMessage := "failed to fetch user role"
  const InvalidRoleMessage := "invalid user role"
  const ForbiddenMessage := "access denied: insufficient permissions"
  const InvalidPvzIdMessage := "invalid pvzId format"
  const GetLastFailedMessage := "failed to get last reception"

  /** The dynamic type of `ctx.Get("role")`: nothing, a plain `string`, or a `UserRole`. */
  datatype ContextRole = Absent | AsString(s: string) | AsUserRole(role: string)

  datatype ReceptionRequest = ReceptionRequest(pvzId: Uuid)
  datatype ProductRequest = ProductRequest(productType: string, pvzId: Uuid)
  datatype PvzRequest = PvzRequest(id: Uuid, registrationDate: Time, city: string)

  datatype ReceptionView = ReceptionView(reception: Reception, products: seq<Product>)
  datatype PvzView = PvzView(pvz: Pvz, receptions: seq<ReceptionView>)

  datatype Body =
    | Message(text: string)
    | ReceptionBody(reception: Reception)
    | ProductBody(product: Product)
    | PvzBody(pvz: Pvz)
    | PvzListBody(items: seq<PvzView>)
    | NullBody

  datatype Response = Response(code: int, body: Body)

  /** A handler's outcome: the response and the database it leaves behind. */
  datatype Reply = Reply(response: Response, db: Db)

  /** An error reply that leaves the database as it was. */
  function Refuse(db: Db, code: int, message: string): Reply {
    Reply(Response(code, Message(message)), db)
  }
}
